=== FILE: README.md ===
# Digital wallet service — a Dafny model

This project models the core of a small digital-wallet system. A SOAP service holds a ledger of
clients and their transactions. It offers five operations:

- register a client;
- recharge a wallet;
- start a payment, which issues a six-digit confirmation token and a session id;
- confirm that payment with the token;
- read a balance.

Every operation answers with the same envelope `{success, code, message, data?}`. A REST API in
front of it validates requests and maps the envelope's code to an HTTP status.

The model is functional. The ledger is an immutable value: two sequences of rows, where a row's
identifier is its position plus one: identifiers are dense, with no gaps. Every operation is a pure
function from the ledger and its inputs to the new ledger and the answer. Whatever the service
draws from outside is passed in as a parameter:

- the clock;
- the random token and the UUID session id;
- whether the database fails during a write. In that case the unit of work is rolled back and
  the answer is a 500.

Money is in integer cents.

The service exists in two variants, one over Eloquent and one over Doctrine. Both run the same
checks in the same order with the same codes and messages, so one engine model (`WalletEngine`)
serves both. Rows of the table below cite either variant.

Modules:

- `Base`: options, first match and count over sequences. These model the `findOneBy` and
  `COUNT` queries the repositories run; `findOneBy` is resolved to the earliest matching row.
- `Text`: decimal rendering and parsing, substring test, XML escaping with quotes.
- `PhpArray`: PHP values and ordered arrays; `$a[k]`, `isset`, `$a[k] = v`, truthiness.
- `Ledger`: the `clients` and `transactions` tables and the ledger invariant `Valid`.
- `ClientRepository`, `TransactionRepository`: the Doctrine repositories.
- `ClientEntity`: the Doctrine `Client` entity and its two-sided association with transactions.
- `Envelope`: the answer envelope, codes, messages, and its PHP array form.
- `WalletEngine`: the five operations.
- `WalletInvariants`: a closed request type, preservation of `Valid` by every request,
  single use of a pending payment, and round trips between operations.
- `SoapController`:
  - inference of the method from parameter names;
  - positional argument binding;
  - normalisation of answers;
  - response naming;
  - `arrayToXml`.
- `RestGateway`: request validation, `buildResponse` and the status map.

`Valid` says six things:

- the schema holds (`WellFormed`): client and transaction ids are the row positions counted from 1, and every
  transaction's client id names an existing client;
- document, email and phone are unique;
- no balance is negative;
- deposits and payments have their proper shape;
- session ids are unique;
- every balance equals the sum of its completed deposits minus its completed payments.

The last point means every balance change is paired with exactly one transaction record.

## Model

| member | source | states |
|---|---|---|
| `Base.FirstIndex` | soap-service/app/Doctrine/Repositories/ClientRepository.php:32-35 | `findOneBy` returns some row satisfying the criteria, and none exactly when no row does; the model picks the earliest |
| `Base.CountWhere` | soap-service/app/Doctrine/Repositories/ClientRepository.php:46-56 | the `COUNT` of matching rows is positive exactly when some row matches |
| `Text.NatToStringRoundTrip` | soap-service/app/Doctrine/Repositories/TransactionRepository.php:59-67 | the decimal text of a number is all digits and parses back to the number |
| `Text.NatToStringInjective` | soap-service/app/Services/WalletSoapService.php:268-271 | different tokens have different texts, so a token lookup cannot confuse two tokens |
| `Text.IntToStringInjective` | soap-service/app/Http/Controllers/SoapController.php:435 | different integers, negative ones included, have different decimal texts |
| `Text.SixDigitToken` | soap-service/app/Services/WalletSoapService.php:212 | a token drawn from [100000, 999999] is written with exactly six digits |
| `Text.ContainsSuffix` | soap-service/app/Http/Controllers/SoapController.php:400-401 | a name that ends in `Response` contains it |
| `Text.EscapeRoundTrip` | soap-service/app/Http/Controllers/SoapController.php:450 | `htmlspecialchars` with quotes loses nothing: an XML reader decodes the escaped text to the original |
| `Text.EscapeHasNoMarkup` | soap-service/app/Http/Controllers/SoapController.php:428 | escaped text never holds `<` or `>`, so a value cannot open or close an element |
| `Text.EscapePlainText` | soap-service/app/Http/Controllers/SoapController.php:450 | text with none of the five special characters is written unchanged |
| `Text.IntTextIsPlain` | soap-service/app/Http/Controllers/SoapController.php:450 | a rendered integer code is written unchanged |
| `Text.Escape` | soap-service/app/Http/Controllers/SoapController.php:450 | escaping never shortens the text and leaves empty text empty; `EscapeRoundTrip`, `EscapeHasNoMarkup` and `EscapePlainText` state what it preserves (it is also applied to scalars at line 428) |
| `PhpArray.Lookup` | soap-service/app/Http/Controllers/SoapController.php:75-89 | `$a[k]` finds a value exactly when some entry carries key k, and that entry is in the array |
| `PhpArray.Assign` | soap-service/app/Http/Controllers/SoapController.php:76-90 | `$a[k] = v` makes k read v, overwrites in place when k exists, appends otherwise, and leaves every other entry where it was |
| `PhpArray.AssignOther` | soap-service/app/Http/Controllers/SoapController.php:84-91 | assigning one key never changes what another key reads |
| `PhpArray.AssignKeepsKeyPositions` | soap-service/app/Http/Controllers/SoapController.php:76-90 | assignment keeps every existing entry's key at its position and never shortens the array |
| `PhpArray.AssignKeepsKeysUnique` | rest-api/app/Http/Controllers/WalletController.php:192-208 | assignment never duplicates a key |
| `PhpArray.AssignSameValue` | soap-service/app/Http/Controllers/SoapController.php:80 | writing back the value a key already holds leaves the array identical |
| `PhpArray.LookupUnique` | soap-service/app/Services/WalletSoapService.php:58-65 | in an array without duplicate keys every entry is what its key reads |
| `Ledger.EmptyStoreValid` | soap-service/app/Doctrine/Entities/Client.php:13-40 | the empty ledger satisfies every ledger invariant |
| `Ledger.NetAppend` | soap-service/app/Services/WalletSoapService.php:120-134 | appending a record adds exactly its effect to its client's sum |
| `Ledger.NetUpdate` | soap-service/app/Services/WalletSoapService.php:297-307 | rewriting one record changes a client's sum by exactly the change in that record's effect |
| `Ledger.NetOfStranger` | soap-service/app/Services/WalletSoapService.php:50-56 | a client with no records has a zero sum, which matches the zero opening balance |
| `Ledger.UpdateAppendKeepsWellFormed` | soap-service/app/Services/WalletSoapService.php:120-132 | rewriting a client under its own id and appending a transaction under the next id that points at a stored client keeps the id scheme |
| `ClientRepository.FindByDocumentAndPhone` | soap-service/app/Doctrine/Repositories/ClientRepository.php:30-36 | the client returned matches both document and phone and is the first such row; none is returned exactly when no row matches both |
| `ClientRepository.MatchIsUnique` | soap-service/app/Doctrine/Repositories/ClientRepository.php:32-35 | with unique documents at most one client matches a (document, phone) pair, so the row an unordered `findOneBy` picks is determined |
| `ClientRepository.Exists` | soap-service/app/Doctrine/Repositories/ClientRepository.php:41-57 | true exactly when some client has the document, or the email, or the phone |
| `ClientRepository.Save` | soap-service/app/Doctrine/Repositories/ClientRepository.php:62-72 | a client without an id is appended under the next id; one with an id is written over its own row with no other row changed; `updated_at` is always set |
| `ClientRepository.SaveOverwrites` | soap-service/app/Doctrine/Repositories/ClientRepository.php:62-72 | saving a stored client rewrites its own row, stamped with the time, and adds no row |
| `ClientRepository.SaveTwiceAddsOneRow` | soap-service/app/Doctrine/Repositories/ClientRepository.php:66-68 | saving an already saved client again adds no row and keeps its id |
| `ClientRepository.FindAfterSave` | soap-service/app/Doctrine/Repositories/ClientRepository.php:30-72 | after a new client is saved, its (document, phone) pair finds it, and its document alone, its email alone and its phone alone each make a registration clash |
| `TransactionRepository.FindBySessionAndToken` | soap-service/app/Doctrine/Repositories/TransactionRepository.php:31-38 | the transaction returned is pending and carries exactly that session id and token, and it is the first such row; none exactly when no row qualifies |
| `TransactionRepository.PendingMatchIsUnique` | soap-service/app/Doctrine/Repositories/TransactionRepository.php:33-37 | with unique session ids at most one transaction matches a (session, token) pair, so the row an unordered `findOneBy` picks is determined |
| `TransactionRepository.Save` | soap-service/app/Doctrine/Repositories/TransactionRepository.php:77-87 | a transaction without an id is appended under the next id, otherwise written over its row with nothing else changed; `updated_at` is always set |
| `TransactionRepository.SaveOverwrites` | soap-service/app/Doctrine/Repositories/TransactionRepository.php:77-87 | saving a stored transaction rewrites its own row, stamped with the time, and adds no row |
| `TransactionRepository.CreateDeposit` | soap-service/app/Doctrine/Repositories/TransactionRepository.php:43-54 | a persisted deposit, completed, for the given client and amount, with no session or token |
| `TransactionRepository.CreatePendingPayment` | soap-service/app/Doctrine/Repositories/TransactionRepository.php:59-72 | a persisted payment, pending, for the given client and amount, carrying the session id and token |
| `TransactionRepository.SaveTwiceAddsOneRow` | soap-service/app/Doctrine/Repositories/TransactionRepository.php:81-83 | saving an already saved transaction again never creates a second record |
| `TransactionRepository.SettledPaymentIsNotFound` | soap-service/app/Doctrine/Repositories/TransactionRepository.php:33-37 | once a pending payment is saved as completed or cancelled, its session and token find nothing |
| `ClientEntity.New` | soap-service/app/Doctrine/Entities/Client.php:42-46 | a new client has no id, balance 0, an empty transaction collection and its creation time set |
| `ClientEntity.Get` | soap-service/app/Doctrine/Entities/Client.php:53-89 | no contract; the four text getters, described by `SetThenGet` |
| `ClientEntity.Set` | soap-service/app/Doctrine/Entities/Client.php:58-95 | no contract; the four text setters returning the same object, described by `SetThenGet` |
| `ClientEntity.GetBalance` | soap-service/app/Doctrine/Entities/Client.php:97-100 | no contract; described by `SetBalanceThenGet` |
| `ClientEntity.SetBalance` | soap-service/app/Doctrine/Entities/Client.php:102-106 | no contract; described by `SetBalanceThenGet` |
| `ClientEntity.SetUpdatedAt` | soap-service/app/Doctrine/Entities/Client.php:148-152 | no contract; described by `SetUpdatedAtThenGet` |
| `ClientEntity.SetThenGet` | soap-service/app/Doctrine/Entities/Client.php:53-95 | each text setter changes only its own field, a getter reads back the value set, and the object keeps its identity |
| `ClientEntity.SetBalanceThenGet` | soap-service/app/Doctrine/Entities/Client.php:97-106 | `getBalance` after `setBalance` reads the value set, and every other field is unchanged |
| `ClientEntity.SetUpdatedAtThenGet` | soap-service/app/Doctrine/Entities/Client.php:143-157 | stamping the modification time touches nothing else, creation time included |
| `ClientEntity.RegistrationChain` | soap-service/app/Services/WalletDoctrineService.php:53-60 | the setter chain on a fresh entity produces exactly the unsaved row the engine inserts |
| `ClientEntity.AddTransaction` | soap-service/app/Doctrine/Entities/Client.php:116-124 | afterwards the collection holds the transaction; a new one is appended and pointed back at this client; an existing one changes nothing |
| `ClientEntity.AddTransactionIdempotent` | soap-service/app/Doctrine/Entities/Client.php:118 | adding the same transaction a second time changes neither side |
| `ClientEntity.RemoveTransaction` | soap-service/app/Doctrine/Entities/Client.php:126-136 | a member loses exactly one occurrence, and its back-pointer is cleared only if it pointed at this client; a non-member changes nothing |
| `ClientEntity.AddThenRemove` | soap-service/app/Doctrine/Entities/Client.php:116-136 | adding a new transaction and removing it restores the client and leaves the transaction without an owner |
| `Envelope.ToPhp` | soap-service/app/Services/WalletSoapService.php:365-374 | an answer as an array has no duplicate key and reads back its success flag, code and message |
| `WalletEngine.RegisterClient` | soap-service/app/Services/WalletSoapService.php:23-75 | 400 exactly when a field is empty; 409 exactly when another client already has the document, the email or the phone; 500 exactly when the insert fails; otherwise 201 with the new id and exactly one client, with balance 0, appended; every failure leaves the ledger unchanged |
| `WalletEngine.RechargeWallet` | soap-service/app/Services/WalletSoapService.php:85-158 | 400 exactly when a field is empty or the amount is negative; 404 exactly when no client has the pair; 500 exactly when the write fails; on success the first matching client gains the amount, one completed deposit is appended, and the new balance is answered; any failure changes nothing |
| `WalletEngine.FoundClientRow` | soap-service/app/Services/WalletDoctrineService.php:110-121 | the client a (document, phone) lookup returns is the first matching row and sits at the row its id names |
| `WalletEngine.Credit` | soap-service/app/Services/WalletSoapService.php:119-148 | once the client is found: a 500 leaves the ledger as it was; otherwise the balance rises by the amount, one completed deposit is appended under the next id, and the answer carries both |
| `WalletEngine.TokenText` | soap-service/app/Doctrine/Repositories/TransactionRepository.php:66 | the stored token is six decimal digits that parse back to the drawn number |
| `WalletEngine.MakePayment` | soap-service/app/Services/WalletSoapService.php:168-246 | the failure cascade: required fields, then positive amount, then 404, then insufficient balance, then 500. Each failure leaves the ledger unchanged. On success one pending payment with the session and token is appended and no balance moves |
| `WalletEngine.Reserve` | soap-service/app/Services/WalletSoapService.php:202-235 | once the client is found: 400 exactly when the balance does not cover the amount, 500 exactly when it does and the write fails; on success the balances are untouched and one pending payment with the session and token is appended |
| `WalletEngine.ConfirmPayment` | soap-service/app/Services/WalletSoapService.php:255-331 | 400 exactly when a field is empty; 404 exactly when no pending payment carries that session and token; 500 exactly when one does and the write fails; 404, 500 and missing fields change nothing |
| `WalletEngine.Settle` | soap-service/app/Services/WalletSoapService.php:281-320 | once the payment is found: 500 exactly when the write fails, leaving the ledger as it was; otherwise 200 or 400 with the insufficient-balance message |
| `WalletEngine.ConfirmSettlesFound` | soap-service/app/Services/WalletSoapService.php:268-282 | a confirmation with non-empty fields hands the first pending row of that session and token to the settlement |
| `WalletEngine.SettleCancels` | soap-service/app/Services/WalletSoapService.php:284-294 | a payment the balance no longer covers is marked cancelled, the balance untouched, and answered 400 |
| `WalletEngine.SettleCompletes` | soap-service/app/Services/WalletSoapService.php:296-317 | a covered payment is completed and its amount debited, answered 200 with the transaction id and the new balance |
| `WalletEngine.SettleKeepsWellFormed` | soap-service/app/Services/WalletSoapService.php:284-307 | settling rewrites rows under their own ids, so the id scheme holds |
| `WalletEngine.ConfirmKeepsWellFormed` | soap-service/app/Services/WalletSoapService.php:255-331 | every confirmation outcome keeps the id scheme |
| `WalletEngine.ConfirmPaymentSettles` | soap-service/app/Services/WalletDoctrineService.php:258-306 | the payment found is cancelled with the balance untouched and a 400 when the balance is short; otherwise the balance drops by the amount and the payment is completed, answering its id and the new balance |
| `WalletEngine.FoundIsFirstPending` | soap-service/app/Services/WalletDoctrineService.php:258-259 | the lookup returns the first pending row carrying that session and token |
| `WalletEngine.Blank` | soap-service/app/Services/WalletSoapService.php:259 | no contract; PHP `empty()` on a string argument (`""` or `"0"`), described by the 400 clauses of the four operations that test it |
| `WalletEngine.GetBalance` | soap-service/app/Services/WalletSoapService.php:340-385 | returns no ledger, so it writes nothing; 400 exactly when a field is empty, 404 exactly when no client has the pair; otherwise the id, document, name and balance of the first matching client |
| `WalletInvariants.Step` | soap-service/app/Services/WalletDoctrineService.php:31-372 | every request answers a code from {200, 201, 400, 404, 409, 500} and keeps the schema of the ledger; a balance query never changes the ledger; a failure changes it only when a confirmation cancels a payment |
| `WalletInvariants.RegisterPreservesValid` | soap-service/app/Services/WalletDoctrineService.php:35-69 | registration keeps the ledger valid, because a new client takes no key in use and starts at 0 |
| `WalletInvariants.RechargePreservesValid` | soap-service/app/Services/WalletDoctrineService.php:93-143 | a recharge keeps the ledger valid, its balance change paired with one deposit |
| `WalletInvariants.MakePaymentPreservesValid` | soap-service/app/Services/WalletDoctrineService.php:200-226 | starting a payment under a fresh session keeps the ledger valid |
| `WalletInvariants.ConfirmPreservesValid` | soap-service/app/Services/WalletSoapService.php:285-316 | a confirmation keeps the ledger valid; in particular no balance goes negative |
| `WalletInvariants.AddClientKeepsValid` | soap-service/app/Services/WalletSoapService.php:36-56 | appending a client with fresh keys and zero balance keeps the ledger valid |
| `WalletInvariants.DepositKeepsValid` | soap-service/app/Services/WalletSoapService.php:120-134 | raising a balance together with one completed deposit of that amount keeps the ledger valid |
| `WalletInvariants.PendingPaymentKeepsValid` | soap-service/app/Services/WalletSoapService.php:212-225 | appending a pending payment under a fresh session keeps the ledger valid |
| `WalletInvariants.CancelKeepsValid` | soap-service/app/Services/WalletSoapService.php:285-287 | cancelling a pending payment keeps the ledger valid |
| `WalletInvariants.CompleteKeepsValid` | soap-service/app/Services/WalletSoapService.php:297-307 | debiting a covered amount while completing its payment keeps the ledger valid |
| `WalletInvariants.CompleteConserves` | soap-service/app/Services/WalletSoapService.php:297-307 | debiting the client while completing its payment keeps every balance equal to its records' net effect |
| `WalletInvariants.StepPreservesValid` | soap-service/app/Services/WalletDoctrineService.php:89-157 | every request, including a failed or rolled-back one, keeps a valid ledger valid |
| `WalletInvariants.ConfirmReplayIsNotFound` | soap-service/app/Services/WalletSoapService.php:268-279 | a second confirmation of the same session and token, right after the first, answers 404, whether the first completed or cancelled the payment; the pair is then settled (its session is used, nothing pending carries it) |
| `WalletInvariants.AppendKeepsSettled` | soap-service/app/Services/WalletSoapService.php:120-128 | appending rows that do not carry a session keeps every settled pair settled |
| `WalletInvariants.RewriteKeepsSettled` | soap-service/app/Services/WalletSoapService.php:284-307 | rewriting one row in place without a pending status or a new session keeps a settled pair settled |
| `WalletInvariants.SettleKeepsSettled` | soap-service/app/Services/WalletSoapService.php:284-307 | settling a payment, cancelled or completed, keeps a settled pair settled |
| `WalletInvariants.RechargeKeepsSettled` | soap-service/app/Services/WalletSoapService.php:120-132 | a recharge appends only a deposit, so a settled pair stays settled |
| `WalletInvariants.StartKeepsSettled` | soap-service/app/Services/WalletSoapService.php:212-223 | a payment start under a fresh session keeps a settled pair settled |
| `WalletInvariants.ConfirmKeepsSettled` | soap-service/app/Services/WalletSoapService.php:268-316 | a confirmation only settles the pending payment it finds and keeps that row's session id, so a settled pair stays settled |
| `WalletInvariants.SettledPairStaysSettled` | soap-service/app/Services/WalletSoapService.php:120-316 | no request turns a completed or cancelled payment back into a pending one or gives its session to a new payment |
| `WalletInvariants.Run` | soap-service/app/Services/WalletDoctrineService.php:31-372 | running a trace of admissible requests from a ledger with its schema in place keeps that schema; admissibility asks nothing of the ledger beyond the first state, since every request keeps the schema |
| `WalletInvariants.RunPreservesValid` | soap-service/app/Services/WalletDoctrineService.php:31-372 | any admissible trace of requests keeps a valid ledger valid |
| `WalletInvariants.SettledPairStaysSettledOnRun` | soap-service/app/Services/WalletSoapService.php:268-279 | a settled pair stays settled across any admissible trace of requests |
| `WalletInvariants.PaymentConsumedOnce` | soap-service/app/Services/WalletSoapService.php:268-316 | a pending payment is consumed at most once: the confirmation that finds it answers 200 or 400, and after it and any admissible trace of further requests, confirming the same session and token answers 404 |
| `WalletInvariants.MakePaymentAppends` | soap-service/app/Services/WalletSoapService.php:216-235 | the exact ledger and answer of a successful payment start |
| `WalletInvariants.StartedPaymentIsPending` | soap-service/app/Services/WalletSoapService.php:216-225 | the payment just started is what its session and token find |
| `WalletInvariants.StartThenConfirm` | soap-service/app/Services/WalletSoapService.php:212-316 | a payment start answers 200 with the session and the six-digit token; confirming with them answers 200 with the new transaction id and the balance lowered by exactly the amount, which is written to the client |
| `WalletInvariants.ConfirmStartedPayment` | soap-service/app/Services/WalletSoapService.php:296-317 | confirming the payment just started, which its client covers, completes it and debits exactly its amount |
| `WalletInvariants.RechargeCredits` | soap-service/app/Services/WalletDoctrineService.php:123-143 | the exact ledger and answer of a successful recharge |
| `WalletInvariants.BalanceReads` | soap-service/app/Services/WalletDoctrineService.php:333-362 | the exact answer of a balance query that finds a client |
| `WalletInvariants.RechargeThenBalance` | soap-service/app/Services/WalletSoapService.php:136-143 | a recharge answers 200 with the raised balance and the deposit's id, and a balance query right after it answers 200 with that same balance for the same client |
| `WalletInvariants.CreditKeepsMatch` | soap-service/app/Services/WalletSoapService.php:130-132 | crediting the client found keeps it the first match of its (document, phone) pair and keeps the id scheme |
| `WalletInvariants.FoundIsFirstMatch` | soap-service/app/Services/WalletDoctrineService.php:110-111 | the lookup returns exactly the first matching client |
| `WalletInvariants.DuplicateDocumentConflicts` | soap-service/app/Services/WalletSoapService.php:36-47 | registering under a document already in use answers 409 and leaves the ledger unchanged |
| `SoapController.BelowErrorRangeOnCodes` | soap-service/app/Http/Controllers/SoapController.php:76 | PHP's loose `code < 400` agrees with integer comparison on integer codes, and a missing code counts as below |
| `SoapController.BelowErrorRange` | soap-service/app/Http/Controllers/SoapController.php:76 | no contract; PHP 8's loose `code < 400` with a missing code read as null, described by `BelowErrorRangeOnCodes` and `NormaliseGuarantees` |
| `SoapController.InferMethod` | soap-service/app/Http/Controllers/SoapController.php:38-59 | a named method is kept; otherwise the first pattern decides. All four registration keys give registration; only a recharge's three keys give a recharge; only document and phone alone give a balance query; session and token give a confirmation exactly when no earlier pattern applies; a payment is never guessed |
| `SoapController.TwoKeys` | soap-service/app/Http/Controllers/SoapController.php:51 | two required keys and a count of two mean exactly those keys |
| `SoapController.ThreeKeys` | soap-service/app/Http/Controllers/SoapController.php:45-46 | three required keys and a count of three mean exactly those keys |
| `SoapController.InferFromOperationParameters` | soap-service/app/Http/Controllers/SoapController.php:42-58 | each operation's own parameter names are recognised, except that a payment's read as a recharge |
| `SoapController.InferStopsAtAmountBranch` | soap-service/app/Http/Controllers/SoapController.php:45-51 | document, phone and amount plus another key (not a registration) infer nothing: the chain stops at that branch |
| `SoapController.MethodParameters` | soap-service/app/Http/Controllers/SoapController.php:356-385 | registration gets four arguments; recharge, payment and balance three; confirmation two; any other method none; each argument is a string or the default 0 |
| `SoapController.Param` | soap-service/app/Http/Controllers/SoapController.php:363-383 | no contract; `$params[name] ?? default`, described by `MethodParameters` and `BindingRecoversArguments` |
| `SoapController.BindingRecoversArguments` | soap-service/app/Http/Controllers/SoapController.php:361-382 | the values a client sends by name come back in the operation's order; absent ones bind '' or 0 |
| `SoapController.Normalise` | soap-service/app/Http/Controllers/SoapController.php:74-92 | an answer that is not an array passes through; an array stays an array |
| `SoapController.NormaliseGuarantees` | soap-service/app/Http/Controllers/SoapController.php:75-91 | success becomes `code < 400` when missing, null or '' and is cast to bool otherwise; a missing code becomes 200 or 400 by success; a missing message gets its default; other keys are untouched and no key is duplicated |
| `SoapController.NormaliseIdempotent` | soap-service/app/Http/Controllers/SoapController.php:74-92 | normalising a normalised answer changes nothing |
| `SoapController.EngineAnswerIsNormal` | soap-service/app/Services/WalletDoctrineService.php:62-69 | the service's own answers already have the normal shape and pass through unchanged |
| `SoapController.UnknownMethodResult` | soap-service/app/Http/Controllers/SoapController.php:93-100 | an undetected or unknown method answers success false and code 400, recording the method or `unknown` |
| `SoapController.ResponseName` | soap-service/app/Http/Controllers/SoapController.php:399-404 | the name always contains `Response`, starts with the method, and is the method itself when it already contains `Response` |
| `SoapController.ResponseNameIdempotent` | soap-service/app/Http/Controllers/SoapController.php:400-404 | naming a response name again changes nothing |
| `SoapController.NamedMethod` | soap-service/app/Http/Controllers/SoapController.php:395-397 | only `unknown` is ever replaced by `request_method` |
| `SoapController.ResponseNamedAfterMethod` | soap-service/app/Http/Controllers/SoapController.php:94-103 | in the request flow the replacement never changes the name: the response is named after the inferred method, or `unknown` |
| `SoapController.UnknownNamesItself` | soap-service/app/Http/Controllers/SoapController.php:93-100 | a missing or `unknown` method is no service method, and its answer's `request_method` names it `unknown` again |
| `SoapController.Handle` | soap-service/app/Http/Controllers/SoapController.php:37-103 | a service method gets its bound arguments and its normalised answer; anything else gets the unknown-method answer; the response name contains `Response` |
| `SoapController.PaymentOnlyWhenNamed` | soap-service/app/Http/Controllers/SoapController.php:42-58 | a payment reaches the service only when the envelope names it |
| `SoapController.ElementName` | soap-service/app/Http/Controllers/SoapController.php:434-436 | the element is named `success` exactly for the string key `success`; a name starting with a digit never comes from an integer or numeric-string key, which are prefixed with `item`; a non-numeric string key keeps its name |
| `SoapController.ElementNameInjectiveOnInts` | soap-service/app/Http/Controllers/SoapController.php:434-436 | two integer keys are written as the same element name only when they are the same key |
| `SoapController.EntriesXmlAnyParent` | soap-service/app/Http/Controllers/SoapController.php:432-453 | the text of a run of entries depends on the entries alone |
| `SoapController.EntriesXmlAppend` | soap-service/app/Http/Controllers/SoapController.php:432-453 | a run of entries is written as its halves one after the other |
| `SoapController.ArrayToXml` | soap-service/app/Http/Controllers/SoapController.php:425-455 | a scalar is written with no `<` or `>`; an array is written as empty text exactly when it has no entries; `ArrayToXmlConcat`, `SingleEntryXml` and `ScalarXmlRoundTrip` state the rest |
| `SoapController.EntriesXml` | soap-service/app/Http/Controllers/SoapController.php:432-453 | a run of entries is written as empty text exactly when the run is empty, since every entry writes an element; `EntriesXmlAppend` and `SingleEntryXml` state the rest |
| `SoapController.ArrayToXmlConcat` | soap-service/app/Http/Controllers/SoapController.php:425-455 | array-to-XML maps concatenation of arrays to concatenation of text, so each entry contributes only its own element |
| `SoapController.SingleEntryXml` | soap-service/app/Http/Controllers/SoapController.php:439-452 | the `success` entry is written as literal `true` or `false` by truthiness; any other entry is its value's XML inside an element named after the key |
| `SoapController.ScalarXmlRoundTrip` | soap-service/app/Http/Controllers/SoapController.php:427-429 | a scalar is written escaped: a reader recovers its string form exactly, and it holds no `<` or `>` |
| `SoapController.FieldXml` | soap-service/app/Http/Controllers/SoapController.php:447-452 | a named field other than `success` is its value wrapped in an element of that name |
| `SoapController.SuccessCodeXml` | soap-service/app/Http/Controllers/SoapController.php:439-452 | the success flag and the code are written as `<success>true/false</success>` followed by the code element |
| `SoapController.HeadXml` | soap-service/app/Http/Controllers/SoapController.php:439-452 | the first three fields of an answer are written as `<success>true/false</success><code>N</code><message>escaped</message>` |
| `SoapController.EngineAnswerXml` | soap-service/app/Http/Controllers/SoapController.php:425-455 | an engine answer is written as success, code and escaped message elements, then the data element |
| `RestGateway.HttpStatus` | rest-api/app/Http/Controllers/WalletController.php:210-225 | the status equals the code exactly when the code is 200, 201, 400, 404, 409 or 500; every other code becomes 500 |
| `RestGateway.DomainCodesPassThrough` | rest-api/app/Http/Controllers/WalletController.php:213-222 | every code the engine answers reaches the client as its HTTP status |
| `RestGateway.LeadingDigits` | rest-api/app/Http/Controllers/WalletController.php:203 | the leading run of digits is all digits, a prefix, and maximal |
| `RestGateway.LeadingDigitsOfDigits` | rest-api/app/Http/Controllers/WalletController.php:203 | a digit string is its own leading run |
| `RestGateway.IntCastOfRenderedCode` | rest-api/app/Http/Controllers/WalletController.php:203 | `(int)` of a code's decimal text recovers the code |
| `RestGateway.IntCast` | rest-api/app/Http/Controllers/WalletController.php:203 | no contract; PHP's `(int)` cast, described by `IntCastOfRenderedCode` and `LeadingDigits` |
| `RestGateway.AnswerCode` | rest-api/app/Http/Controllers/WalletController.php:199-204 | no contract; the code an answer carries, 500 when missing, described by `BuildResponse` and `BuildResponseGuarantees` |
| `RestGateway.AnswerSuccess` | rest-api/app/Http/Controllers/WalletController.php:192-197 | no contract; the success flag, false when missing, described by `BuildResponseGuarantees` |
| `RestGateway.BuildResponse` | rest-api/app/Http/Controllers/WalletController.php:186-231 | the HTTP status is the mapped code, and is one of 200, 201, 400, 404, 409, 500 |
| `RestGateway.BuildResponseGuarantees` | rest-api/app/Http/Controllers/WalletController.php:192-208 | success is false when missing and cast to bool otherwise; code is 500 when missing and cast to int otherwise; a missing message gets its default; other fields are untouched and none is duplicated |
| `RestGateway.NormalBodyUnchanged` | rest-api/app/Http/Controllers/WalletController.php:192-230 | a body with a boolean flag, an integer code and a message is answered as it is |
| `RestGateway.BuildResponseIdempotent` | rest-api/app/Http/Controllers/WalletController.php:186-231 | building a response from a built body changes nothing |
| `RestGateway.EngineAnswerPassesThrough` | rest-api/app/Http/Controllers/WalletController.php:199-225 | an engine answer reaches the client unchanged with its code as the HTTP status |
| `RestGateway.FailingFields` | rest-api/app/Http/Controllers/WalletController.php:30-37 | a field is listed exactly when it fails one of its rules: every listed field fails and every failing field is listed; the list is empty exactly when every field passes |
| `RestGateway.Rules` | rest-api/app/Http/Controllers/WalletController.php:30-161 | every field of every endpoint's rule list starts with `required` followed by at least one further rule, and no field is listed twice |
| `RestGateway.Satisfies` | rest-api/app/Http/Controllers/WalletController.php:64-68 | no contract; Laravel's meaning of each rule, described by `IssuedTokenPasses`, `ValidAmountIsPositive` and `FailingFields` |
| `RestGateway.ValidationFailure` | rest-api/app/Http/Controllers/WalletController.php:37-44 | no contract; the 400 validation answer, described by `Call` and `ValidationShortCircuits` |
| `RestGateway.Arguments` | rest-api/app/Http/Controllers/WalletController.php:46-175 | the service receives one argument per validated field, in the rule list's order, each the request's input under that field's name (null when absent) |
| `RestGateway.Call` | rest-api/app/Http/Controllers/WalletController.php:62-86 | a request that fails validation gets the 400 answer; one that passes gets the built response of the service's answer to its fields |
| `RestGateway.ValidationShortCircuits` | rest-api/app/Http/Controllers/WalletController.php:37-44 | a failing request is answered 400 whatever the service would have done |
| `RestGateway.IssuedTokenPasses` | rest-api/app/Http/Controllers/WalletController.php:128-131 | a confirmation carrying the session and a token the engine issued passes `required|string|size:6` |
| `RestGateway.ValidAmountIsPositive` | rest-api/app/Http/Controllers/WalletController.php:96-100 | an amount that passes `required|numeric|min:0.01` is at least one cent, so the engine's amount checks accept it |

## Left out

- I/O is not modelled. This covers:
  - logging;
  - the SOAP envelope text around the answer (its namespace URL comes from configuration);
  - the WSDL;
  - HTTP plumbing.
- The extraction of the method name and parameters from the SOAP body is not modelled. It uses
  SimpleXML and regular expressions, and the extracted method and parameters are inputs to
  `SoapController.Handle`.
- The SOAP client the REST API calls through is not modelled. It is the service parameter of
  `RestGateway.Call`.
- Money is integer cents, not PHP floats over `decimal(10,2)`. So an answer's amounts are
  written as cents, a validation amount is numeric only as an integer or a digit string of
  cents, and the SOAP controller's string amount is not converted to the engine's number.
- The token and the session id are parameters. A token is in [100000, 999999] and a session
  id is fresh (a UUID); freshness is a hypothesis of the invariant lemmas.
- Eloquent stores the token as an integer, and its `where('token', …)` relies on SQL string/number
  coercion, so a token with a leading zero or a sign would match. This coercion is not modelled;
  tokens are compared as text, as the Doctrine variant does.
- Identifiers are dense in the model: the next client or transaction id is the table's size
  plus one. InnoDB's auto-increment does not give back a value taken by an insert that is later
  rolled back. A recharge inserts its deposit before saving the client (WalletSoapService.php
  line 123 before line 132; WalletDoctrineService.php line 127 before line 131), so a failure at
  the save leaves a gap. After such a 500 the service's next `transaction_id` and `client_id` can
  be larger than the model's. So the ids that `WalletEngine.RechargeWallet`,
  `WalletEngine.ConfirmPayment` and `WalletEngine.RegisterClient` answer match the service only
  on a history without rolled-back inserts.
- Concurrency is left out: the model is sequential. The balance check at confirmation runs
  outside the database transaction, so two racing confirmations are out of scope.
- The text of the exception in a 500 message is left out. Only the message prefix is modelled.
- `getBalance` has no write, so the model has no storage-failure branch for it.
- Storage failure is modelled only at the write step (`storeFails`). A read that throws (the
  `exists` or `findOneBy` query before any write, or any query of `getBalance`) answers 500 in
  the service. The model's "409 exactly when" and "404 exactly when" contracts therefore
  describe a database whose reads succeed.
- Balances and amounts are unbounded integer cents. The `decimal(10,2)` column holds at most
  99,999,999.99, and a credit past that makes the write fail with a 500 in the service. In the
  model that credit succeeds.
- Text keys (document, email, phone, session id, token) are compared exactly. The repositories'
  queries run on MySQL, whose default collations ignore case and accents. So `ClientRepository.Exists`,
  `ClientRepository.FindByDocumentAndPhone`, `TransactionRepository.FindBySessionAndToken` and the
  uniqueness part of `Valid` are stated for exact equality only. Under the database's
  collation, for example, document "ab12" would find a stored "AB12" and a registration with it
  would conflict.
- `findOneBy` without an order is a `LIMIT 1` query, and which matching row it returns is not
  specified. The model returns the earliest; under the ledger invariant at most one row matches
  (`ClientRepository.MatchIsUnique`, `TransactionRepository.PendingMatchIsUnique`). The `session_id` column has no unique index; the
  model's uniqueness of sessions is a hypothesis (fresh UUIDs), not a database guarantee.
- `WalletEngine.ConfirmPayment`: its contract does not spell out the cancel and complete effects,
  because `WalletEngine.ConfirmPaymentSettles` states them exactly for the payment found.
- PHP's `empty()` treats "0" as empty, and the model keeps that: `Blank` is `"" or "0"`, and an
  amount is empty when it is 0.
- `method_exists` is case-insensitive and also true for other methods of the service class.
  Only the five operation names, spelled exactly, are modelled as callable.
- `is_numeric` on string keys: only digit strings are treated as numeric keys. Signs, decimals,
  exponents and surrounding whitespace are not.
- `(int)` of a string: only an optional minus sign and leading digits are modelled, not
  whitespace, `+`, or exponents.
- PHP 8's loose `<` between a numeric string and an integer is modelled for digit strings only.
- Laravel validation:
  - Error messages are replaced by the names of the failing fields.
  - Trimming of input strings is not modelled.
  - The email rule is the parameter `isEmail`.
- Typed properties of a `Client` that the constructor does not initialise are modelled as empty
  strings. In PHP, reading one before it is set throws an error.
- The Doctrine `Transaction` entity is not part of this model beyond its identity and its
  back-pointer to the client.
- Deleting a client, with its cascade to transactions, is not an operation of the service and is
  not modelled.

## Findings

No discrepancy between the code and its evident intent was found that this model can exhibit.
One behaviour is worth knowing, and it is intended by the code's own comment: a SOAP request
that does not name its method and carries document, phone and amount is run as a recharge,
never as a payment (`SoapController.InferFromOperationParameters`).

=== FILE: base.dfy ===
/** Small building blocks shared by the wallet model: an optional value (the
    PHP `null` of a lookup) and first-match / count searches over sequences,
    which is how the relational store answers `findOneBy` and `COUNT(...)`
    queries over rows kept in insertion order.
 */
module Base {

  datatype Option<+T> = None | Some(value: T)

  /** Index of the first element satisfying `p`, or None when no element does. */
  function FirstIndex<T>(s: seq<T>, p: T -> bool): (r: Option<nat>)
    ensures r.Some? ==> r.value < |s| && p(s[r.value])
    ensures r.Some? ==> forall j :: 0 <= j < r.value ==> !p(s[j])
    ensures r.None? <==> forall j :: 0 <= j < |s| ==> !p(s[j])
  {
    if |s| == 0 then None
    else if p(s[0]) then Some(0)
    else match FirstIndex(s[1..], p)
      case None => None
      case Some(k) => Some(k + 1)
  }

  /** Number of elements satisfying `p`. */
  function CountWhere<T>(s: seq<T>, p: T -> bool): (n: nat)
    ensures n <= |s|
    ensures n > 0 <==> exists j :: 0 <= j < |s| && p(s[j])
  {
    if |s| == 0 then 0
    else (if p(s[0]) then 1 else 0) + CountWhere(s[1..], p)
  }
}

=== FILE: client_entity.dfy ===
/** The Doctrine `Client` entity as an immutable value: its persisted columns
    (a ledger row), its object identity and the collection of transactions
    it owns. A transaction object is seen only through its identity and its
    back-pointer to the owning client, which is all the two-sided
    association maintains.
 */
module ClientEntity {
  import opened Base
  import Ledger

  /** Object identity: PHP compares objects in a collection with `===`. */
  type ObjectRef = nat

  datatype TransactionObject = TransactionObject(ref: ObjectRef, client: Option<ObjectRef>)

  datatype ClientObject = ClientObject(ref: ObjectRef, row: Ledger.Client, transactions: seq<ObjectRef>)

  /** The result of a call that changes both sides of the association. */
  datatype Linked = Linked(client: ClientObject, transaction: TransactionObject)

  /** The four text columns, for the setter/getter laws. */
  datatype Field = Document | Name | Email | Phone

  /** `new Client()`: no identifier yet, zero balance, an empty collection and
      the creation time set. The text columns are not initialised by the
      constructor; they are modelled as empty. */
  function New(ref: ObjectRef, now: nat): (c: ClientObject)
    ensures c.ref == ref && c.row.id.None? && c.row.balance == 0 && c.transactions == []
    ensures c.row.createdAt == now && c.row.updatedAt.None?
  {
    ClientObject(ref, Ledger.Client(None, "", "", "", "", 0, now, None), [])
  }

  function Get(c: ClientObject, f: Field): string {
    match f
    case Document => c.row.document
    case Name => c.row.name
    case Email => c.row.email
    case Phone => c.row.phone
  }

  /** `setDocument` / `setName` / `setEmail` / `setPhone`, returning the same object. */
  function Set(c: ClientObject, f: Field, v: string): ClientObject {
    match f
    case Document => c.(row := c.row.(document := v))
    case Name => c.(row := c.row.(name := v))
    case Email => c.(row := c.row.(email := v))
    case Phone => c.(row := c.row.(phone := v))
  }

  function GetBalance(c: ClientObject): int {
    c.row.balance
  }

  function SetBalance(c: ClientObject, b: int): ClientObject {
    c.(row := c.row.(balance := b))
  }

  /** A setter changes its own field and nothing else, and the object keeps
      its identity: a getter reads back the value set, other fields as before. */
  lemma SetThenGet(c: ClientObject, f: Field, g: Field, v: string)
    ensures Set(c, f, v).ref == c.ref
    ensures Get(Set(c, f, v), g) == if f == g then v else Get(c, g)
    ensures GetBalance(Set(c, f, v)) == GetBalance(c)
    ensures Set(c, f, v).row.id == c.row.id && Set(c, f, v).transactions == c.transactions
    ensures Set(c, f, v).row.createdAt == c.row.createdAt && Set(c, f, v).row.updatedAt == c.row.updatedAt
  {
  }

  lemma SetBalanceThenGet(c: ClientObject, b: int, g: Field)
    ensures SetBalance(c, b).ref == c.ref
    ensures GetBalance(SetBalance(c, b)) == b
    ensures Get(SetBalance(c, b), g) == Get(c, g)
    ensures SetBalance(c, b).row.id == c.row.id && SetBalance(c, b).transactions == c.transactions
  {
  }

  /** `setUpdatedAt`, and `updateTimestamps` with the clock passed in. */
  function SetUpdatedAt(c: ClientObject, t: nat): ClientObject {
    c.(row := c.row.(updatedAt := Some(t)))
  }

  /** Stamping the modification time touches only that column, never the
      creation time or the object's identity. */
  lemma SetUpdatedAtThenGet(c: ClientObject, t: nat, g: Field)
    ensures SetUpdatedAt(c, t).row.updatedAt == Some(t)
    ensures SetUpdatedAt(c, t).row.createdAt == c.row.createdAt
    ensures SetUpdatedAt(c, t).ref == c.ref && SetUpdatedAt(c, t).transactions == c.transactions
    ensures Get(SetUpdatedAt(c, t), g) == Get(c, g) && GetBalance(SetUpdatedAt(c, t)) == GetBalance(c)
  {
  }

  /** The fluent chain the Doctrine registration runs on a fresh entity yields
      exactly the unsaved row the wallet engine inserts. */
  lemma RegistrationChain(ref: ObjectRef, now: nat, document: string, name: string, email: string, phone: string)
    ensures var c := SetBalance(Set(Set(Set(Set(New(ref, now), Document, document), Name, name), Email, email), Phone, phone), 0);
            c.row == Ledger.Client(None, document, name, email, phone, 0, now, None) && c.transactions == []
  {
  }

  /** `addTransaction`: append the transaction unless the collection already
      holds it, and point it back at this client when it is appended. */
  function AddTransaction(c: ClientObject, t: TransactionObject): (r: Linked)
    ensures t.ref in r.client.transactions
    ensures r.client.ref == c.ref && r.client.row == c.row
    ensures t.ref in c.transactions ==> r == Linked(c, t)
    ensures t.ref !in c.transactions ==>
              && r.client.transactions == c.transactions + [t.ref]
              && r.transaction == t.(client := Some(c.ref))
  {
    if t.ref in c.transactions then Linked(c, t)
    else Linked(c.(transactions := c.transactions + [t.ref]), t.(client := Some(c.ref)))
  }

  /** `removeTransaction`: drop the first occurrence; if it was found and
      still points at this client, clear the back-pointer. */
  function RemoveTransaction(c: ClientObject, t: TransactionObject): (r: Linked)
    ensures r.client.ref == c.ref && r.client.row == c.row
    ensures t.ref !in c.transactions ==> r == Linked(c, t)
    ensures t.ref in c.transactions ==>
              && |r.client.transactions| == |c.transactions| - 1
              && multiset(r.client.transactions) == multiset(c.transactions) - multiset{t.ref}
    ensures r.transaction.client == if t.ref in c.transactions && t.client == Some(c.ref) then None else t.client
    ensures r.transaction.ref == t.ref
  {
    match FirstIndex(c.transactions, (x: ObjectRef) => x == t.ref)
    case None => Linked(c, t)
    case Some(k) =>
      assert c.transactions == c.transactions[..k] + [t.ref] + c.transactions[k + 1..];
      var rest := c.transactions[..k] + c.transactions[k + 1..];
      var owner := if t.client == Some(c.ref) then t.(client := None) else t;
      Linked(c.(transactions := rest), owner)
  }

  /** Adding a transaction the collection already holds changes nothing. */
  lemma AddTransactionIdempotent(c: ClientObject, t: TransactionObject)
    ensures var once := AddTransaction(c, t);
            AddTransaction(once.client, once.transaction) == once
  {
  }

  /** Adding a new transaction and removing it again restores the client and
      leaves the transaction without an owner. */
  lemma AddThenRemove(c: ClientObject, t: TransactionObject)
    requires t.ref !in c.transactions
    ensures var added := AddTransaction(c, t);
            var removed := RemoveTransaction(added.client, added.transaction);
            removed.client == c && removed.transaction == t.(client := None)
  {
    var added := AddTransaction(c, t);
    var n := |c.transactions|;
    var k := FirstIndex(added.client.transactions, (x: ObjectRef) => x == t.ref);
    assert added.client.transactions[n] == t.ref;
    assert k == Some(n);
    assert added.client.transactions[..n] + added.client.transactions[n + 1..] == c.transactions;
  }
}

=== FILE: client_repository.dfy ===
/** The store operations on clients that the wallet engine relies on:
    lookup by the (document, phone) pair, the any-key-taken test used at
    registration, and insert-or-update.
 */
module ClientRepository {
  import opened Base
  import opened Ledger

  datatype Saved = Saved(store: Store, client: Client)

  predicate Matches(c: Client, document: string, phone: string) {
    c.document == document && c.phone == phone
  }

  /** Row i is the first one, in insertion order, holding this (document, phone) pair. */
  predicate IsFirstMatch(s: Store, i: nat, document: string, phone: string) {
    && i < |s.clients|
    && Matches(s.clients[i], document, phone)
    && forall j :: 0 <= j < i ==> !Matches(s.clients[j], document, phone)
  }

  /** `findOneBy(['document' => ..., 'phone' => ...])`: the first stored
      client matching both columns. */
  function FindByDocumentAndPhone(s: Store, document: string, phone: string): (r: Option<Client>)
    ensures r.Some? ==> r.value in s.clients && Matches(r.value, document, phone)
    ensures r.Some? ==> exists i: nat :: IsFirstMatch(s, i, document, phone) && s.clients[i] == r.value
    ensures r.None? <==> forall i :: 0 <= i < |s.clients| ==> !Matches(s.clients[i], document, phone)
  {
    match FirstIndex(s.clients, (c: Client) => Matches(c, document, phone))
    case None => None
    case Some(i) => Some(s.clients[i])
  }

  /** With unique documents at most one row matches a (document, phone) pair,
      so which matching row an unordered `findOneBy` returns does not matter. */
  lemma MatchIsUnique(s: Store, i: nat, j: nat, document: string, phone: string)
    requires UniqueKeys(s)
    requires i < |s.clients| && j < |s.clients|
    requires Matches(s.clients[i], document, phone) && Matches(s.clients[j], document, phone)
    ensures i == j
  {
  }

  /** `COUNT(c.id) ... WHERE document = ? OR email = ? OR phone = ?` is positive. */
  function Exists(s: Store, document: string, email: string, phone: string): (b: bool)
    ensures b <==> exists i :: 0 <= i < |s.clients| && Clashes(s.clients[i], document, email, phone)
  {
    CountWhere(s.clients, (c: Client) => Clashes(c, document, email, phone)) > 0
  }

  /** Persist a client: a client without an identifier is inserted and given
      the next one, any other is written over its row; the modification time
      is set in every case. */
  function Save(s: Store, c: Client, now: nat): (r: Saved)
    ensures r.client.updatedAt == Some(now)
    ensures r.client == c.(id := r.client.id, updatedAt := Some(now))
    ensures r.store.transactions == s.transactions
    ensures c.id.None? ==> r.client.id == Some(|s.clients| + 1) && r.store.clients == s.clients + [r.client]
    ensures c.id.Some? ==> r.client.id == c.id && |r.store.clients| == |s.clients|
    ensures c.id.Some? ==> forall j :: 0 <= j < |s.clients| && c.id != Some(j + 1) ==> r.store.clients[j] == s.clients[j]
    ensures c.id.Some? && 1 <= c.id.value <= |s.clients| ==> r.store.clients[c.id.value - 1] == r.client
  {
    var stamped := c.(updatedAt := Some(now));
    var saved := if c.id.None? then stamped.(id := Some(|s.clients| + 1)) else stamped;
    Saved(s.(clients := Upsert(s.clients, c.id, saved)), saved)
  }

  /** Saving a client that already has row i rewrites exactly that row. */
  lemma SaveOverwrites(s: Store, i: nat, c: Client, now: nat)
    requires i < |s.clients| && c.id == Some(i + 1)
    ensures Save(s, c, now).client == c.(updatedAt := Some(now))
    ensures Save(s, c, now).store == s.(clients := s.clients[i := c.(updatedAt := Some(now))])
  {
    var r := Save(s, c, now);
    assert r.store.clients == s.clients[i := c.(updatedAt := Some(now))];
  }

  /** Saving an already saved client again never adds a row. */
  lemma SaveTwiceAddsOneRow(s: Store, c: Client, now: nat, later: nat)
    ensures var once := Save(s, c, now);
            var twice := Save(once.store, once.client, later);
            |twice.store.clients| == |once.store.clients| && twice.client.id == once.client.id
  {
  }

  /** After a new client is saved into a store where no client holds its
      (document, phone) pair, the pair finds it, and each of its document,
      email and phone on its own counts as taken. */
  lemma FindAfterSave(s: Store, c: Client, now: nat)
    requires c.id.None?
    requires FindByDocumentAndPhone(s, c.document, c.phone).None?
    ensures var r := Save(s, c, now);
            && FindByDocumentAndPhone(r.store, c.document, c.phone) == Some(r.client)
            && (forall e, p :: Exists(r.store, c.document, e, p))
            && (forall d, p :: Exists(r.store, d, c.email, p))
            && (forall d, e :: Exists(r.store, d, e, c.phone))
  {
    var r := Save(s, c, now);
    var n := |s.clients|;
    assert r.store.clients[n] == r.client;
    assert forall i :: 0 <= i < n ==> r.store.clients[i] == s.clients[i];
    forall d, e, p | d == c.document || e == c.email || p == c.phone
      ensures Exists(r.store, d, e, p)
    {
      assert Clashes(r.store.clients[n], d, e, p);
    }
  }
}

=== FILE: envelope.dfy ===
/** The uniform answer of every wallet operation: `{success, code, message, data?}`.
    `code` is a domain status drawn from a fixed set, independent of the
    transport that carries it.
 */
module Envelope {
  import opened Base
  import opened PhpArray

  /** The payload of a successful answer. */
  datatype Data =
    | NoData
    | ClientCreated(clientId: nat)
    | Recharged(newBalance: int, transactionId: nat)
    | PaymentStarted(sessionId: string, token: string)
    | PaymentConfirmed(transactionId: nat, newBalance: int)
    | BalanceSnapshot(clientId: nat, document: string, name: string, balance: int)

  datatype Envelope = Envelope(success: bool, code: int, message: string, data: Data)

  const Ok: int := 200
  const Created: int := 201
  const BadRequest: int := 400
  const NotFound: int := 404
  const Conflict: int := 409
  const InternalError: int := 500

  const DomainCodes: set<int> := {Ok, Created, BadRequest, NotFound, Conflict, InternalError}

  const MsgRequired := "Todos los campos son requeridos"
  const MsgAmountPositive := "El monto debe ser mayor a cero"
  const MsgClientExists := "El cliente ya existe con el documento, email o teléfono proporcionado"
  const MsgClientNotFound := "Cliente no encontrado"
  const MsgInsufficient := "Saldo insuficiente para realizar el pago"
  const MsgTransactionNotFound := "Transacción no encontrada o ya procesada"
  const MsgRegistered := "Cliente registrado con éxito"
  const MsgRecharged := "Recarga realizada con éxito"
  const MsgTokenSent := "Se ha enviado un token de confirmación al correo registrado"
  const MsgConfirmed := "Pago confirmado con éxito"
  const MsgBalance := "Saldo consultado con éxito"
  /** Prefix of the internal-error message; the exception text that follows
      it is not modelled. */
  const MsgInternal := "Error al procesar la solicitud: "

  function Failure(code: int, message: string): Envelope {
    Envelope(false, code, message, NoData)
  }

  /** The `data` array of each successful answer, keys in the service's order. */
  function DataEntries(d: Data): seq<Entry> {
    match d
    case NoData => []
    case ClientCreated(id) => [Field("client_id", Int(id))]
    case Recharged(balance, id) => [Field("new_balance", Int(balance)), Field("transaction_id", Int(id))]
    case PaymentStarted(sid, token) => [Field("session_id", Str(sid)), Field("token", Str(token))]
    case PaymentConfirmed(id, balance) => [Field("transaction_id", Int(id)), Field("new_balance", Int(balance))]
    case BalanceSnapshot(id, document, name, balance) =>
      [Field("client_id", Int(id)), Field("document", Str(document)), Field("name", Str(name)), Field("balance", Int(balance))]
  }

  /** The array the wallet service returns for an answer. */
  function ToPhp(e: Envelope): (v: PhpValue)
    ensures v.Arr? && KeysUnique(v.entries)
    ensures Lookup(v.entries, SuccessKey) == Some(Bool(e.success))
    ensures Lookup(v.entries, CodeKey) == Some(Int(e.code))
    ensures Lookup(v.entries, MessageKey) == Some(Str(e.message))
  {
    var head := [Field("success", Bool(e.success)), Field("code", Int(e.code)), Field("message", Str(e.message))];
    var es := if e.data.NoData? then head else head + [Field("data", Arr(DataEntries(e.data)))];
    assert KeysUnique(es);
    assert es[..3] == head;
    LookupUnique(es, 0);
    LookupUnique(es, 1);
    LookupUnique(es, 2);
    Arr(es)
  }
}

=== FILE: ledger.dfy ===
/** The wallet ledger: the `clients` and `transactions` tables and the
    invariants the wallet engine keeps over them.

    Rows are kept in insertion order and the auto-increment identifier of a
    row is its position plus one. Money is held as integer cents (the columns
    are `decimal(10,2)`).
 */
module Ledger {
  import opened Base

  datatype TxType = Deposit | Payment

  datatype TxStatus = Pending | Completed | Cancelled

  /** A wallet holder. `id` is None until the row has been inserted. */
  datatype Client = Client(
    id: Option<nat>,
    document: string,
    name: string,
    email: string,
    phone: string,
    balance: int,
    createdAt: nat,
    updatedAt: Option<nat>)

  /** A deposit or a payment attempt of one client. Only payments carry a
      session id and a confirmation token. */
  datatype Transaction = Transaction(
    id: Option<nat>,
    clientId: nat,
    txType: TxType,
    amount: int,
    status: TxStatus,
    sessionId: Option<string>,
    token: Option<string>,
    createdAt: nat,
    updatedAt: Option<nat>)

  datatype Store = Store(clients: seq<Client>, transactions: seq<Transaction>)

  const EmptyStore: Store := Store([], [])

  /** Insert (no identifier yet) or overwrite the row with the given identifier;
      a row whose identifier names no stored row is not written. */
  function Upsert<T>(rows: seq<T>, id: Option<nat>, row: T): seq<T> {
    match id
    case None => rows + [row]
    case Some(k) => if 1 <= k <= |rows| then rows[k - 1 := row] else rows
  }

  // ---------------------------------------------------------------------
  // Schema guarantees: auto-increment primary keys and the foreign key.
  // ---------------------------------------------------------------------

  predicate WellFormed(s: Store) {
    && (forall i :: 0 <= i < |s.clients| ==> s.clients[i].id == Some(i + 1))
    && (forall i :: 0 <= i < |s.transactions| ==> s.transactions[i].id == Some(i + 1))
    && (forall i :: 0 <= i < |s.transactions| ==> 1 <= s.transactions[i].clientId <= |s.clients|)
  }

  /** Rewriting a client row under its own id and appending a transaction
      under the next id that points at an existing client keeps the schema. */
  lemma UpdateAppendKeepsWellFormed(s: Store, i: nat, c: Client, t: Transaction)
    requires WellFormed(s) && i < |s.clients|
    requires c.id == s.clients[i].id
    requires t.id == Some(|s.transactions| + 1) && 1 <= t.clientId <= |s.clients|
    ensures WellFormed(Store(s.clients[i := c], s.transactions + [t]))
  {
  }

  // ---------------------------------------------------------------------
  // Business invariants.
  // ---------------------------------------------------------------------

  /** A client whose document, email or phone collides with the given ones. */
  predicate Clashes(c: Client, document: string, email: string, phone: string) {
    c.document == document || c.email == email || c.phone == phone
  }

  /** document, email and phone are each unique across all clients. */
  predicate UniqueKeys(s: Store) {
    forall i, j :: 0 <= i < j < |s.clients| ==>
      && s.clients[i].document != s.clients[j].document
      && s.clients[i].email != s.clients[j].email
      && s.clients[i].phone != s.clients[j].phone
  }

  predicate NonNegativeBalances(s: Store) {
    forall i :: 0 <= i < |s.clients| ==> s.clients[i].balance >= 0
  }

  /** Deposits are born completed and carry no session; payments carry a
      session id and a token; every amount is positive. */
  predicate WellShaped(t: Transaction) {
    && t.amount > 0
    && (t.txType == Deposit ==> t.status == Completed && t.sessionId.None? && t.token.None?)
    && (t.txType == Payment ==> t.sessionId.Some? && t.token.Some?)
  }

  predicate TransactionsWellShaped(s: Store) {
    forall i :: 0 <= i < |s.transactions| ==> WellShaped(s.transactions[i])
  }

  /** No two transactions share a session id. */
  predicate SessionsUnique(s: Store) {
    forall i, j :: 0 <= i < j < |s.transactions| && s.transactions[i].sessionId.Some? ==>
      s.transactions[i].sessionId != s.transactions[j].sessionId
  }

  /** What a transaction contributes to the balance of client `clientId`:
      only completed ones count, deposits add and payments subtract. */
  function Effect(t: Transaction, clientId: nat): int {
    if t.clientId != clientId || t.status != Completed then 0
    else if t.txType == Deposit then t.amount
    else -t.amount
  }

  /** Sum of the effects of a transaction history on one client. */
  function Net(txs: seq<Transaction>, clientId: nat): int {
    if |txs| == 0 then 0 else Net(txs[..|txs| - 1], clientId) + Effect(txs[|txs| - 1], clientId)
  }

  /** Every balance is exactly accounted for by its transaction records:
      no balance changes without a record, no record without its change. */
  predicate Conserved(s: Store) {
    forall i :: 0 <= i < |s.clients| ==> s.clients[i].balance == Net(s.transactions, i + 1)
  }

  predicate Valid(s: Store) {
    && WellFormed(s)
    && UniqueKeys(s)
    && NonNegativeBalances(s)
    && TransactionsWellShaped(s)
    && SessionsUnique(s)
    && Conserved(s)
  }

  lemma EmptyStoreValid()
    ensures Valid(EmptyStore)
  {
  }

  lemma NetAppend(txs: seq<Transaction>, t: Transaction, clientId: nat)
    ensures Net(txs + [t], clientId) == Net(txs, clientId) + Effect(t, clientId)
  {
    assert (txs + [t])[..|txs|] == txs;
  }

  /** Replacing one record changes the sum by exactly the difference of the
      two records' effects. */
  lemma {:induction false} NetUpdate(txs: seq<Transaction>, k: nat, t: Transaction, clientId: nat)
    requires k < |txs|
    ensures Net(txs[k := t], clientId) == Net(txs, clientId) - Effect(txs[k], clientId) + Effect(t, clientId)
    decreases |txs|
  {
    var n := |txs| - 1;
    var u := txs[k := t];
    if k == n {
      assert u[..n] == txs[..n];
    } else {
      assert u[..n] == txs[..n][k := t];
      NetUpdate(txs[..n], k, t, clientId);
    }
  }

  /** A history none of whose records belongs to `clientId` leaves it at zero. */
  lemma {:induction false} NetOfStranger(txs: seq<Transaction>, clientId: nat)
    requires forall i :: 0 <= i < |txs| ==> txs[i].clientId != clientId
    ensures Net(txs, clientId) == 0
    decreases |txs|
  {
    if |txs| > 0 {
      NetOfStranger(txs[..|txs| - 1], clientId);
    }
  }
}

=== FILE: php_array.dfy ===
/** PHP values as the two controllers handle them: scalars and ordered
    arrays (ordered maps from integer or string keys), with the array
    operations and casts the controllers use.
 */
module PhpArray {
  import opened Base
  import Text

  datatype Key = IntKey(i: int) | StrKey(s: string)

  /** A PHP value as the controller meets it (amounts are cents). */
  datatype PhpValue = Null | Bool(b: bool) | Int(i: int) | Str(s: string) | Arr(entries: seq<Entry>)

  datatype Entry = Entry(key: Key, value: PhpValue)

  // ---------------------------------------------------------------- PHP arrays

  /** `$a[k]` on an array: the value stored under k, if any. */
  function Lookup(es: seq<Entry>, k: Key): (r: Option<PhpValue>)
    ensures r.Some? <==> exists i :: 0 <= i < |es| && es[i].key == k
    ensures r.Some? ==> Entry(k, r.value) in es
  {
    if |es| == 0 then None
    else if es[0].key == k then Some(es[0].value)
    else Lookup(es[1..], k)
  }

  /** `isset($a[k])`: the key is present and its value is not null. */
  predicate IsSet(es: seq<Entry>, k: Key) {
    Lookup(es, k).Some? && Lookup(es, k).value != Null
  }

  /** A PHP array never holds a key twice. */
  predicate KeysUnique(es: seq<Entry>) {
    forall i, j :: 0 <= i < j < |es| ==> es[i].key != es[j].key
  }

  /** `$a[k] = v`: overwrite the entry holding k where it stands, or append one. */
  function Assign(es: seq<Entry>, k: Key, v: PhpValue): (r: seq<Entry>)
    ensures Lookup(r, k) == Some(v)
    ensures Lookup(es, k).Some? ==> |r| == |es|
    ensures Lookup(es, k).None? ==> r == es + [Entry(k, v)]
    ensures forall i :: 0 <= i < |es| && es[i].key != k ==> r[i] == es[i]
    ensures forall i :: 0 <= i < |r| ==> r[i].key == k || r[i] in es
  {
    if |es| == 0 then [Entry(k, v)]
    else if es[0].key == k then [Entry(k, v)] + es[1..]
    else [es[0]] + Assign(es[1..], k, v)
  }

  /** In an array without duplicate keys every entry is what its key looks up. */
  lemma {:induction false} LookupUnique(es: seq<Entry>, i: nat)
    requires KeysUnique(es) && i < |es|
    ensures Lookup(es, es[i].key) == Some(es[i].value)
    decreases i
  {
    if i > 0 {
      assert es[0].key != es[i].key;
      assert es[1..][i - 1] == es[i];
      LookupUnique(es[1..], i - 1);
    }
  }

  /** Assigning one key leaves every other key's value as it was. */
  lemma {:induction false} AssignOther(es: seq<Entry>, k: Key, v: PhpValue, other: Key)
    requires other != k
    ensures Lookup(Assign(es, k, v), other) == Lookup(es, other)
    decreases |es|
  {
    if |es| > 0 && es[0].key != k && es[0].key != other {
      AssignOther(es[1..], k, v, other);
      assert Assign(es, k, v)[1..] == Assign(es[1..], k, v);
    }
  }

  /** Assigning keeps every existing entry's key where it stands. */
  lemma {:induction false} AssignKeepsKeyPositions(es: seq<Entry>, k: Key, v: PhpValue)
    ensures |Assign(es, k, v)| >= |es|
    ensures forall i :: 0 <= i < |es| ==> Assign(es, k, v)[i].key == es[i].key
    decreases |es|
  {
    if |es| > 0 && es[0].key != k {
      AssignKeepsKeyPositions(es[1..], k, v);
      assert Assign(es, k, v)[1..] == Assign(es[1..], k, v);
    }
  }

  /** Assigning keeps an array's keys unique. */
  lemma AssignKeepsKeysUnique(es: seq<Entry>, k: Key, v: PhpValue)
    requires KeysUnique(es)
    ensures KeysUnique(Assign(es, k, v))
  {
    var r := Assign(es, k, v);
    AssignKeepsKeyPositions(es, k, v);
    if Lookup(es, k).Some? {
      forall i, j | 0 <= i < j < |r|
        ensures r[i].key != r[j].key
      {
        assert es[i].key != es[j].key;
      }
    } else {
      forall i, j | 0 <= i < j < |r|
        ensures r[i].key != r[j].key
      {
        if j == |es| {
          assert r[j].key == k && es[i].key != k;
        } else {
          assert es[i].key != es[j].key;
        }
      }
    }
  }

  /** Writing back the value a key already holds changes nothing. */
  lemma {:induction false} AssignSameValue(es: seq<Entry>, k: Key, v: PhpValue)
    requires Lookup(es, k) == Some(v)
    ensures Assign(es, k, v) == es
    decreases |es|
  {
    if es[0].key != k {
      AssignSameValue(es[1..], k, v);
    }
  }

  /** PHP truthiness, as `(bool)` and `if ($v)` see it. */
  predicate Truthy(v: PhpValue) {
    match v
    case Null => false
    case Bool(b) => b
    case Int(i) => i != 0
    case Str(s) => s != "" && s != "0"
    case Arr(es) => |es| > 0
  }

  /** Byte-wise string order, PHP's comparison of non-numeric strings
      (code-point order agrees with UTF-8 byte order). */
  predicate LexLess(a: string, b: string) {
    if |a| == 0 then |b| > 0
    else if |b| == 0 then false
    else if a[0] != b[0] then a[0] < b[0]
    else LexLess(a[1..], b[1..])
  }

  /** A decimal-digit string, the numeric strings the model recognises. */
  predicate Numeric(s: string) {
    |s| > 0 && Text.AllDigits(s)
  }


  /** `(string)` of a scalar: true is "1", false and null are empty. */
  function ScalarText(v: PhpValue): string
    requires !v.Arr?
  {
    match v
    case Null => ""
    case Bool(b) => if b then "1" else ""
    case Int(i) => Text.IntToString(i)
    case Str(s) => s
  }

  const SuccessKey := StrKey("success")
  const CodeKey := StrKey("code")
  const MessageKey := StrKey("message")

  /** The entry `'name' => v` of an array literal. */
  function Field(name: string, v: PhpValue): Entry {
    Entry(StrKey(name), v)
  }
}

=== FILE: rest_gateway.dfy ===
/** The REST controller in front of the SOAP service. Each endpoint checks
    the request against its validation rules and answers 400 without calling
    the service when they fail; otherwise it forwards the fields and turns
    the service's answer into a JSON body with an HTTP status. The SOAP
    client that makes the call, and Laravel's email check, are parameters.
    Amounts are in cents, so the rule `min:0.01` is a minimum of one cent.
 */
module RestGateway {
  import opened Base
  import opened PhpArray
  import Text
  import Envelope
  import WalletEngine

  datatype Operation = Register | Recharge | Pay | Confirm | Balance

  /** A JSON response: the body's fields and the HTTP status. */
  datatype RestResponse = RestResponse(body: seq<Entry>, status: int)

  /** The statuses the API answers with. */
  const PassedStatuses: set<int> := {200, 201, 400, 404, 409}

  const MsgNoMessage := "Respuesta sin mensaje"
  const MsgValidation := "Error de validación"

  // ------------------------------------------------------------ answers

  /** The code-to-status map: the five statuses the API uses pass through,
      anything else is an internal error. */
  function HttpStatus(code: int): (status: int)
    ensures status in PassedStatuses || status == 500
    ensures status == code <==> code in PassedStatuses || code == 500
    ensures code !in PassedStatuses ==> status == 500
  {
    if code == 201 then 201
    else if code == 200 then 200
    else if code == 400 then 400
    else if code == 404 then 404
    else if code == 409 then 409
    else 500
  }

  /** Every status the engine can put in an answer reaches the client as is. */
  lemma DomainCodesPassThrough(code: int)
    requires code in Envelope.DomainCodes
    ensures HttpStatus(code) == code
  {
  }

  /** The longest run of digits at the start of a string. */
  function LeadingDigits(s: string): (d: string)
    ensures Text.AllDigits(d) && |d| <= |s| && s[..|d|] == d
    ensures |d| < |s| ==> !Text.IsDigit(s[|d|])
  {
    if |s| > 0 && Text.IsDigit(s[0]) then [s[0]] + LeadingDigits(s[1..]) else ""
  }

  /** `(int)` of a string: an optional minus sign and the leading digits;
      a string with no leading digits is 0. */
  function LeadingInt(s: string): int {
    if |s| > 0 && s[0] == '-' then -(Text.ParseDigits(LeadingDigits(s[1..])) as int)
    else Text.ParseDigits(LeadingDigits(s))
  }

  /** `(int)` of a value. */
  function IntCast(v: PhpValue): int {
    match v
    case Null => 0
    case Bool(b) => if b then 1 else 0
    case Int(i) => i
    case Str(s) => LeadingInt(s)
    case Arr(es) => if |es| == 0 then 0 else 1
  }

  /** A digit string is its own leading run. */
  lemma {:induction false} LeadingDigitsOfDigits(s: string)
    requires Text.AllDigits(s)
    ensures LeadingDigits(s) == s
    decreases |s|
  {
    if |s| > 0 {
      LeadingDigitsOfDigits(s[1..]);
      assert [s[0]] + s[1..] == s;
    }
  }

  /** Casting the decimal text of a code back to int recovers the code. */
  lemma IntCastOfRenderedCode(i: int)
    ensures IntCast(Str(Text.IntToString(i))) == i
  {
    var n: nat := if i < 0 then -i else i;
    Text.NatToStringRoundTrip(n);
    LeadingDigitsOfDigits(Text.NatToString(n));
    if i >= 0 {
      assert Text.IsDigit(Text.NatToString(n)[0]);
    } else {
      assert ("-" + Text.NatToString(n))[1..] == Text.NatToString(n);
    }
  }

  /** The code an answer carries: cast to int, or 500 when missing. */
  function AnswerCode(result: seq<Entry>): int {
    if IsSet(result, CodeKey) then IntCast(Lookup(result, CodeKey).value) else 500
  }

  /** The success flag an answer carries: cast to boolean, false when missing. */
  predicate AnswerSuccess(result: seq<Entry>) {
    IsSet(result, SuccessKey) && Truthy(Lookup(result, SuccessKey).value)
  }

  /** `buildResponse`: a boolean success flag, an integer code and a message
      in the body, and the status the code maps to. */
  function BuildResponse(result: seq<Entry>): (r: RestResponse)
    ensures r.status == HttpStatus(AnswerCode(result))
    ensures r.status in PassedStatuses || r.status == 500
  {
    var code := AnswerCode(result);
    var withSuccess := Assign(result, SuccessKey, Bool(AnswerSuccess(result)));
    var withCode := Assign(withSuccess, CodeKey, Int(code));
    var withMessage := if IsSet(withCode, MessageKey) then withCode else Assign(withCode, MessageKey, Str(MsgNoMessage));
    RestResponse(withMessage, HttpStatus(code))
  }

  /** What the body guarantees: success and code are always present with
      their cast values, a message is kept or defaulted, every other field is
      untouched, and no field is duplicated. */
  lemma BuildResponseGuarantees(result: seq<Entry>)
    ensures var body := BuildResponse(result).body;
            && Lookup(body, SuccessKey) == Some(Bool(AnswerSuccess(result)))
            && Lookup(body, CodeKey) == Some(Int(AnswerCode(result)))
            && (IsSet(result, MessageKey) ==> Lookup(body, MessageKey) == Lookup(result, MessageKey))
            && (!IsSet(result, MessageKey) ==> Lookup(body, MessageKey) == Some(Str(MsgNoMessage)))
            && (forall k :: k != SuccessKey && k != CodeKey && k != MessageKey ==> Lookup(body, k) == Lookup(result, k))
            && (KeysUnique(result) ==> KeysUnique(body))
  {
    var code := AnswerCode(result);
    var ok := Bool(AnswerSuccess(result));
    var s1 := Assign(result, SuccessKey, ok);
    AssignOther(result, SuccessKey, ok, MessageKey);
    var s2 := Assign(s1, CodeKey, Int(code));
    AssignOther(s1, CodeKey, Int(code), SuccessKey);
    AssignOther(s1, CodeKey, Int(code), MessageKey);
    var s3 := if IsSet(s2, MessageKey) then s2 else Assign(s2, MessageKey, Str(MsgNoMessage));
    AssignOther(s2, MessageKey, Str(MsgNoMessage), SuccessKey);
    AssignOther(s2, MessageKey, Str(MsgNoMessage), CodeKey);
    assert BuildResponse(result).body == s3;
    forall k | k != SuccessKey && k != CodeKey && k != MessageKey
      ensures Lookup(s3, k) == Lookup(result, k)
    {
      AssignOther(result, SuccessKey, ok, k);
      AssignOther(s1, CodeKey, Int(code), k);
      AssignOther(s2, MessageKey, Str(MsgNoMessage), k);
    }
    if KeysUnique(result) {
      AssignKeepsKeysUnique(result, SuccessKey, ok);
      AssignKeepsKeysUnique(s1, CodeKey, Int(code));
      AssignKeepsKeysUnique(s2, MessageKey, Str(MsgNoMessage));
    }
  }

  /** A body that already holds a boolean success flag, an integer code and
      a message: what `buildResponse` produces. */
  predicate NormalBody(body: seq<Entry>) {
    && Lookup(body, SuccessKey).Some? && Lookup(body, SuccessKey).value.Bool?
    && Lookup(body, CodeKey).Some? && Lookup(body, CodeKey).value.Int?
    && IsSet(body, MessageKey)
  }

  /** A normal body is answered as it is, with the status its code maps to. */
  lemma NormalBodyUnchanged(body: seq<Entry>)
    requires NormalBody(body)
    ensures BuildResponse(body) == RestResponse(body, HttpStatus(Lookup(body, CodeKey).value.i))
  {
    var ok := Lookup(body, SuccessKey).value;
    var code := Lookup(body, CodeKey).value;
    assert Bool(AnswerSuccess(body)) == ok;
    assert Int(AnswerCode(body)) == code;
    AssignSameValue(body, SuccessKey, ok);
    AssignSameValue(body, CodeKey, code);
  }

  /** Building a response from a built body changes nothing. */
  lemma BuildResponseIdempotent(result: seq<Entry>)
    ensures BuildResponse(BuildResponse(result).body) == BuildResponse(result)
  {
    var body := BuildResponse(result).body;
    BuildResponseGuarantees(result);
    assert NormalBody(body);
    NormalBodyUnchanged(body);
  }

  /** An answer of the wallet engine reaches the client unchanged, with its
      code as the HTTP status. */
  lemma EngineAnswerPassesThrough(e: Envelope.Envelope)
    requires e.code in Envelope.DomainCodes
    ensures BuildResponse(Envelope.ToPhp(e).entries) == RestResponse(Envelope.ToPhp(e).entries, e.code)
  {
    var es := Envelope.ToPhp(e).entries;
    assert NormalBody(es);
    NormalBodyUnchanged(es);
  }

  // --------------------------------------------------------- validation

  datatype Rule = Required | IsString | IsEmail | IsNumeric | MinCents(cents: int) | Size(n: nat)

  /** The rules of each endpoint, field by field. */
  function Rules(op: Operation): (r: seq<(string, seq<Rule>)>)
    ensures forall i :: 0 <= i < |r| ==> |r[i].1| >= 2 && r[i].1[0] == Required
    ensures forall i, j :: 0 <= i < j < |r| ==> r[i].0 != r[j].0
  {
    match op
    case Register =>
      [("document", [Required, IsString]), ("name", [Required, IsString]),
       ("email", [Required, IsEmail]), ("phone", [Required, IsString])]
    case Recharge =>
      [("document", [Required, IsString]), ("phone", [Required, IsString]),
       ("amount", [Required, IsNumeric, MinCents(1)])]
    case Pay =>
      [("document", [Required, IsString]), ("phone", [Required, IsString]),
       ("amount", [Required, IsNumeric, MinCents(1)])]
    case Confirm =>
      [("session_id", [Required, IsString]), ("token", [Required, IsString, Size(6)])]
    case Balance =>
      [("document", [Required, IsString]), ("phone", [Required, IsString])]
  }

  /** A numeric value: an integer, or a string of digits. */
  predicate NumericValue(v: PhpValue) {
    v.Int? || (v.Str? && Numeric(v.s))
  }

  /** Does the field's value satisfy the rule? `isEmail` is the framework's
      address check. */
  predicate Satisfies(field: Option<PhpValue>, rule: Rule, isEmail: string -> bool) {
    match field
    case None => false
    case Some(v) =>
      match rule
      case Required => v != Null && v != Str("") && v != Arr([])
      case IsString => v.Str?
      case IsEmail => v.Str? && isEmail(v.s)
      case IsNumeric => NumericValue(v)
      case MinCents(c) =>
        (match v
         case Int(i) => i >= c
         case Str(s) => if Numeric(s) then Text.ParseDigits(s) >= c else 100 * |s| >= c
         case Arr(es) => 100 * |es| >= c
         case _ => false)
      case Size(n) =>
        (match v
         case Str(s) => |s| == n
         case Int(i) => |Text.IntToString(i)| == n
         case Arr(es) => |es| == n
         case _ => false)
  }

  predicate FieldPasses(request: map<string, PhpValue>, name: string, rules: seq<Rule>, isEmail: string -> bool) {
    var field := if name in request then Some(request[name]) else None;
    forall j :: 0 <= j < |rules| ==> Satisfies(field, rules[j], isEmail)
  }

  /** The request passes when every field satisfies every one of its rules. */
  predicate Passes(op: Operation, request: map<string, PhpValue>, isEmail: string -> bool) {
    var rules := Rules(op);
    forall i :: 0 <= i < |rules| ==> FieldPasses(request, rules[i].0, rules[i].1, isEmail)
  }

  /** The fields that fail, in rule order. */
  function FailingFields(fields: seq<(string, seq<Rule>)>, request: map<string, PhpValue>, isEmail: string -> bool): (r: seq<string>)
    ensures forall f :: f in r ==> exists i :: 0 <= i < |fields| && fields[i].0 == f && !FieldPasses(request, f, fields[i].1, isEmail)
    ensures forall i :: 0 <= i < |fields| && !FieldPasses(request, fields[i].0, fields[i].1, isEmail) ==> fields[i].0 in r
    ensures r == [] <==> forall i :: 0 <= i < |fields| ==> FieldPasses(request, fields[i].0, fields[i].1, isEmail)
  {
    if |fields| == 0 then []
    else
      var rest := FailingFields(fields[1..], request, isEmail);
      if FieldPasses(request, fields[0].0, fields[0].1, isEmail) then rest else [fields[0].0] + rest
  }

  /** The 400 answer of a request that fails validation, naming the fields. */
  function ValidationFailure(failing: seq<string>): RestResponse {
    var errors := seq(|failing|, i requires 0 <= i < |failing| => Entry(IntKey(i), Str(failing[i])));
    RestResponse([Field("success", Bool(false)), Field("code", Int(400)), Field("message", Str(MsgValidation)),
                  Field("errors", Arr(errors))], 400)
  }

  /** `$request->input(name)`: the field, or null when absent. */
  function Input(request: map<string, PhpValue>, name: string): PhpValue {
    if name in request then request[name] else Null
  }

  /** The fields forwarded to the service, in the operation's order. */
  function Arguments(op: Operation, request: map<string, PhpValue>): (args: seq<PhpValue>)
    ensures |args| == |Rules(op)|
    ensures forall i :: 0 <= i < |args| ==> args[i] == Input(request, Rules(op)[i].0)
  {
    match op
    case Register => [Input(request, "document"), Input(request, "name"), Input(request, "email"), Input(request, "phone")]
    case Recharge => [Input(request, "document"), Input(request, "phone"), Input(request, "amount")]
    case Pay => [Input(request, "document"), Input(request, "phone"), Input(request, "amount")]
    case Confirm => [Input(request, "session_id"), Input(request, "token")]
    case Balance => [Input(request, "document"), Input(request, "phone")]
  }

  /** One endpoint: validate, then call the service and build the response. */
  function Call(op: Operation, request: map<string, PhpValue>, isEmail: string -> bool,
                service: (Operation, seq<PhpValue>) -> seq<Entry>): (r: RestResponse)
    ensures r.status in PassedStatuses || r.status == 500
    ensures !Passes(op, request, isEmail) ==> r == ValidationFailure(FailingFields(Rules(op), request, isEmail)) && r.status == 400
    ensures Passes(op, request, isEmail) ==> r == BuildResponse(service(op, Arguments(op, request)))
  {
    var failing := FailingFields(Rules(op), request, isEmail);
    if failing != [] then ValidationFailure(failing)
    else BuildResponse(service(op, Arguments(op, request)))
  }

  /** A request that fails validation is answered 400 without the service:
      any two services give the same answer. */
  lemma ValidationShortCircuits(op: Operation, request: map<string, PhpValue>, isEmail: string -> bool,
                                service1: (Operation, seq<PhpValue>) -> seq<Entry>,
                                service2: (Operation, seq<PhpValue>) -> seq<Entry>)
    requires !Passes(op, request, isEmail)
    ensures Call(op, request, isEmail, service1) == Call(op, request, isEmail, service2)
    ensures Call(op, request, isEmail, service1).status == 400
  {
  }

  /** A confirmation carrying a session identifier and a token the engine
      issued passes validation. */
  lemma IssuedTokenPasses(sessionId: string, token: nat, isEmail: string -> bool)
    requires sessionId != ""
    requires 100000 <= token <= 999999
    ensures Passes(Confirm, map["session_id" := Str(sessionId), "token" := Str(WalletEngine.TokenText(token))], isEmail)
  {
    var request := map["session_id" := Str(sessionId), "token" := Str(WalletEngine.TokenText(token))];
    assert FieldPasses(request, "session_id", [Required, IsString], isEmail);
    assert FieldPasses(request, "token", [Required, IsString, Size(6)], isEmail);
  }

  /** An amount that passes validation is at least one cent, so the engine's
      own amount checks accept it. */
  lemma ValidAmountIsPositive(op: Operation, request: map<string, PhpValue>, isEmail: string -> bool)
    requires op == Recharge || op == Pay
    requires Passes(op, request, isEmail)
    ensures "amount" in request && NumericValue(request["amount"])
    ensures request["amount"].Int? ==> request["amount"].i >= 1
    ensures request["amount"].Str? ==> Text.ParseDigits(request["amount"].s) >= 1
  {
    var rules := [Required, IsNumeric, MinCents(1)];
    assert Rules(op)[2] == ("amount", rules);
    assert FieldPasses(request, "amount", rules, isEmail);
    var field := if "amount" in request then Some(request["amount"]) else None;
    assert Satisfies(field, rules[0], isEmail);
    assert "amount" in request;
    assert Satisfies(field, rules[1], isEmail);
    assert Satisfies(field, rules[2], isEmail);
  }
}

=== FILE: soap_controller.dfy ===
/** The SOAP front of the wallet service: picking the operation when the
    envelope does not name it, binding named parameters to positional
    arguments, normalising the service's answer, and writing that answer as
    XML. PHP arrays are ordered maps, modelled as sequences of entries. The
    XML parsing that extracts the method name and the parameters, and the
    envelope text around the answer, are not modelled: the extracted name
    and parameters are inputs here.
 */
module SoapController {
  import opened Base
  import opened PhpArray
  import Text
  import Envelope

  /** PHP 8's loose `$result['code'] < 400`, where a missing key reads as null. */
  predicate BelowErrorRange(code: Option<PhpValue>) {
    match code
    case None => true
    case Some(v) =>
      match v
      case Null => true
      case Bool(b) => !b
      case Int(i) => i < 400
      case Str(s) => if Numeric(s) then Text.ParseDigits(s) < 400 else LexLess(s, "400")
      case Arr(_) => false
  }

  /** The loose comparison agrees with the integer one on integer codes, and a
      missing code counts as a success. */
  lemma BelowErrorRangeOnCodes(code: int)
    ensures BelowErrorRange(Some(Int(code))) <==> code < 400
    ensures BelowErrorRange(None) && BelowErrorRange(Some(Null))
  {
  }

  // ------------------------------------------------------ method inference

  const RegisterClient := "registerClient"
  const RechargeWallet := "rechargeWallet"
  const MakePayment := "makePayment"
  const ConfirmPayment := "confirmPayment"
  const GetBalance := "getBalance"

  /** The operations the wallet service exposes. */
  const ServiceMethods: set<string> := {RegisterClient, RechargeWallet, MakePayment, ConfirmPayment, GetBalance}

  /** `!$method` on the extracted name; a name that could not be extracted is "". */
  predicate Falsy(op: string) {
    op == "" || op == "0"
  }

  /** When the envelope named no operation, guess it from the parameter names:
      all four registration fields mean registration; document, phone and
      amount with nothing else mean a recharge (a payment is never guessed);
      document and phone alone mean a balance query; session and token mean a
      confirmation. The first pattern that applies decides, even when it then
      guesses nothing. */
  function InferMethod(detected: string, params: map<string, string>): (m: string)
    ensures !Falsy(detected) || |params| == 0 ==> m == detected
    ensures m == detected || m in {RegisterClient, RechargeWallet, GetBalance, ConfirmPayment}
    ensures m == MakePayment ==> detected == MakePayment
    ensures Falsy(detected) && |params| > 0 && {"document", "name", "email", "phone"} <= params.Keys ==> m == RegisterClient
    ensures m == RechargeWallet && detected != RechargeWallet ==>
              params.Keys == {"document", "phone", "amount"}
    ensures m == GetBalance && detected != GetBalance ==> params.Keys == {"document", "phone"}
    ensures m == ConfirmPayment && detected != ConfirmPayment ==>
              "sessionId" in params && "token" in params && !({"document", "phone", "amount"} <= params.Keys)
    ensures && Falsy(detected) && |params| > 0 && "sessionId" in params && "token" in params
            && !({"document", "name", "email", "phone"} <= params.Keys)
            && !({"document", "phone", "amount"} <= params.Keys)
            ==> m == ConfirmPayment
  {
    if Falsy(detected) && |params| > 0 then
      if {"document", "name", "email", "phone"} <= params.Keys then RegisterClient
      else if {"document", "phone", "amount"} <= params.Keys then
        (if |params| == 3 then
           assert |params.Keys| == 3;
           ThreeKeys(params.Keys, "document", "phone", "amount");
           RechargeWallet
         else detected)
      else if {"document", "phone"} <= params.Keys && |params| == 2 then
        assert |params.Keys| == 2;
        TwoKeys(params.Keys, "document", "phone");
        GetBalance
      else if "sessionId" in params && "token" in params then ConfirmPayment
      else detected
    else detected
  }

  /** A set of two keys that holds two given keys is exactly those keys. */
  lemma TwoKeys(keys: set<string>, a: string, b: string)
    requires a != b
    requires {a, b} <= keys && |keys| == 2
    ensures keys == {a, b}
  {
    var rest := keys - {a, b};
    assert keys == {a, b} + rest;
    assert |keys| == |{a, b}| + |rest|;
  }

  /** A set of three keys that holds three given keys is exactly those keys. */
  lemma ThreeKeys(keys: set<string>, a: string, b: string, c: string)
    requires a != b && b != c && a != c
    requires {a, b, c} <= keys && |keys| == 3
    ensures keys == {a, b, c}
  {
    var rest := keys - {a, b, c};
    assert |{a, b, c}| == 3;
    assert keys == {a, b, c} + rest;
    assert |keys| == |{a, b, c}| + |rest|;
  }

  /** The arguments each operation's client sends, by name, are recognised
      without the operation's name, except that a payment reads as a recharge. */
  lemma InferFromOperationParameters(document: string, name: string, email: string, phone: string,
                                     amount: string, sessionId: string, token: string)
    ensures InferMethod("", map["document" := document, "name" := name, "email" := email, "phone" := phone]) == RegisterClient
    ensures InferMethod("", map["document" := document, "phone" := phone, "amount" := amount]) == RechargeWallet
    ensures InferMethod("", map["document" := document, "phone" := phone]) == GetBalance
    ensures InferMethod("", map["sessionId" := sessionId, "token" := token]) == ConfirmPayment
  {
    var recharge := map["document" := document, "phone" := phone, "amount" := amount];
    assert recharge.Keys == {"document", "phone", "amount"};
    assert |recharge| == |recharge.Keys| == 3;
    var balance := map["document" := document, "phone" := phone];
    assert balance.Keys == {"document", "phone"};
    assert |balance| == |balance.Keys| == 2;
    var confirm := map["sessionId" := sessionId, "token" := token];
    assert "document" !in confirm;
  }

  /** Once document, phone and amount are all present the chain stops at that
      branch: with a fourth key that is not part of a registration no
      operation is guessed. */
  lemma InferStopsAtAmountBranch(params: map<string, string>)
    requires {"document", "phone", "amount"} <= params.Keys && |params| != 3
    requires "name" !in params
    ensures InferMethod("", params) == ""
  {
  }

  // --------------------------------------------------- argument binding

  /** `$params[name] ?? default`: extracted parameters are strings, never null. */
  function Param(params: map<string, string>, name: string, fallback: PhpValue): PhpValue {
    if name in params then Str(params[name]) else fallback
  }

  /** Positional arguments for the service call; an unknown method gets none.
      A balance query is handed a third argument, the amount, which the
      operation ignores. */
  function MethodParameters(op: string, params: map<string, string>): (args: seq<PhpValue>)
    ensures op == RegisterClient ==> |args| == 4
    ensures op in {RechargeWallet, MakePayment, GetBalance} ==> |args| == 3
    ensures op == ConfirmPayment ==> |args| == 2
    ensures op !in ServiceMethods ==> args == []
    ensures forall i :: 0 <= i < |args| ==> args[i].Str? || args[i] == Int(0)
  {
    if op == RegisterClient then
      [Param(params, "document", Str("")), Param(params, "name", Str("")),
       Param(params, "email", Str("")), Param(params, "phone", Str(""))]
    else if op == RechargeWallet || op == MakePayment || op == GetBalance then
      [Param(params, "document", Str("")), Param(params, "phone", Str("")), Param(params, "amount", Int(0))]
    else if op == ConfirmPayment then
      [Param(params, "sessionId", Str("")), Param(params, "token", Str(""))]
    else []
  }

  /** Binding recovers, in the operation's order, the values its client sent
      by name; a missing name binds its default. */
  lemma BindingRecoversArguments(document: string, name: string, email: string, phone: string,
                                 amount: string, sessionId: string, token: string)
    ensures MethodParameters(RegisterClient, map["document" := document, "name" := name, "email" := email, "phone" := phone])
            == [Str(document), Str(name), Str(email), Str(phone)]
    ensures MethodParameters(MakePayment, map["document" := document, "phone" := phone, "amount" := amount])
            == [Str(document), Str(phone), Str(amount)]
    ensures MethodParameters(GetBalance, map["document" := document, "phone" := phone])
            == [Str(document), Str(phone), Int(0)]
    ensures MethodParameters(ConfirmPayment, map["sessionId" := sessionId, "token" := token])
            == [Str(sessionId), Str(token)]
    ensures MethodParameters(ConfirmPayment, map[]) == [Str(""), Str("")]
  {
  }

  // ------------------------------------------------ result normalisation

  const RequestMethodKey := StrKey("request_method")

  const MsgCompleted := "Operación completada"
  const MsgFailed := "Error en la operación"

  /** The success flag after normalisation: a usable flag is cast to boolean;
      a missing, null or empty one is derived from the code. */
  predicate NormalSuccess(es: seq<Entry>) {
    if !IsSet(es, SuccessKey) || Lookup(es, SuccessKey) == Some(Str("")) then BelowErrorRange(Lookup(es, CodeKey))
    else Truthy(Lookup(es, SuccessKey).value)
  }

  /** Make sure an array answer carries a boolean `success`, a `code` and a
      `message`; anything else is passed through. */
  function Normalise(result: PhpValue): (r: PhpValue)
    ensures !result.Arr? ==> r == result
    ensures result.Arr? ==> r.Arr?
  {
    if !result.Arr? then result
    else
      var es := result.entries;
      var ok := NormalSuccess(es);
      var withSuccess := Assign(es, SuccessKey, Bool(ok));
      var withCode := if IsSet(withSuccess, CodeKey) then withSuccess
                      else Assign(withSuccess, CodeKey, Int(if ok then 200 else 400));
      var withMessage := if IsSet(withCode, MessageKey) then withCode
                         else Assign(withCode, MessageKey, Str(if ok then MsgCompleted else MsgFailed));
      Arr(withMessage)
  }

  /** What a normalised answer guarantees: a boolean success flag as the
      source's rules compute it, a code that was kept or derived from the
      flag, a message that was kept or defaulted, every other key untouched,
      and still no duplicate key. */
  lemma NormaliseGuarantees(es: seq<Entry>)
    ensures var r := Normalise(Arr(es)).entries;
            var ok := NormalSuccess(es);
            && Lookup(r, SuccessKey) == Some(Bool(ok))
            && (IsSet(es, CodeKey) ==> Lookup(r, CodeKey) == Lookup(es, CodeKey))
            && (!IsSet(es, CodeKey) ==> Lookup(r, CodeKey) == Some(Int(if ok then 200 else 400)))
            && (IsSet(es, MessageKey) ==> Lookup(r, MessageKey) == Lookup(es, MessageKey))
            && (!IsSet(es, MessageKey) ==> Lookup(r, MessageKey) == Some(Str(if ok then MsgCompleted else MsgFailed)))
            && (forall k :: k != SuccessKey && k != CodeKey && k != MessageKey ==> Lookup(r, k) == Lookup(es, k))
            && (KeysUnique(es) ==> KeysUnique(r))
  {
    var ok := NormalSuccess(es);
    var s1 := Assign(es, SuccessKey, Bool(ok));
    AssignOther(es, SuccessKey, Bool(ok), CodeKey);
    AssignOther(es, SuccessKey, Bool(ok), MessageKey);
    var s2 := if IsSet(s1, CodeKey) then s1 else Assign(s1, CodeKey, Int(if ok then 200 else 400));
    AssignOther(s1, CodeKey, Int(if ok then 200 else 400), SuccessKey);
    AssignOther(s1, CodeKey, Int(if ok then 200 else 400), MessageKey);
    var s3 := if IsSet(s2, MessageKey) then s2 else Assign(s2, MessageKey, Str(if ok then MsgCompleted else MsgFailed));
    AssignOther(s2, MessageKey, Str(if ok then MsgCompleted else MsgFailed), SuccessKey);
    AssignOther(s2, MessageKey, Str(if ok then MsgCompleted else MsgFailed), CodeKey);
    assert Normalise(Arr(es)).entries == s3;
    forall k | k != SuccessKey && k != CodeKey && k != MessageKey
      ensures Lookup(s3, k) == Lookup(es, k)
    {
      AssignOther(es, SuccessKey, Bool(ok), k);
      AssignOther(s1, CodeKey, Int(if ok then 200 else 400), k);
      AssignOther(s2, MessageKey, Str(if ok then MsgCompleted else MsgFailed), k);
    }
    if KeysUnique(es) {
      AssignKeepsKeysUnique(es, SuccessKey, Bool(ok));
      AssignKeepsKeysUnique(s1, CodeKey, Int(if ok then 200 else 400));
      AssignKeepsKeysUnique(s2, MessageKey, Str(if ok then MsgCompleted else MsgFailed));
    }
  }

  /** Normalising twice is normalising once. */
  lemma NormaliseIdempotent(result: PhpValue)
    ensures Normalise(Normalise(result)) == Normalise(result)
  {
    if result.Arr? {
      var es := result.entries;
      var r := Normalise(result).entries;
      var ok := NormalSuccess(es);
      NormaliseGuarantees(es);
      assert IsSet(r, SuccessKey) && IsSet(r, CodeKey) && IsSet(r, MessageKey);
      assert NormalSuccess(r) == ok;
      AssignSameValue(r, SuccessKey, Bool(ok));
    }
  }

  /** The answer when no service operation matches the method. */
  function UnknownMethodResult(op: string): (r: PhpValue)
    ensures r.Arr? && KeysUnique(r.entries)
    ensures Lookup(r.entries, SuccessKey) == Some(Bool(false)) && Lookup(r.entries, CodeKey) == Some(Int(Envelope.BadRequest))
    ensures Lookup(r.entries, RequestMethodKey) == Some(Str(if Falsy(op) then "unknown" else op))
  {
    var es := [Entry(SuccessKey, Bool(false)),
               Entry(CodeKey, Int(Envelope.BadRequest)),
               Entry(MessageKey, Str("Método no encontrado: " + (if Falsy(op) then "método no detectado" else op))),
               Entry(RequestMethodKey, Str(if Falsy(op) then "unknown" else op))];
    assert KeysUnique(es);
    LookupUnique(es, 0);
    LookupUnique(es, 1);
    LookupUnique(es, 3);
    Arr(es)
  }

  // ------------------------------------------------------- response naming

  /** The response element's name: the method with `Response` appended
      unless the name already contains it. */
  function ResponseName(op: string): (r: string)
    ensures Text.Contains(r, "Response")
    ensures |op| <= |r| && r[..|op|] == op
    ensures Text.Contains(op, "Response") ==> r == op
  {
    if Text.Contains(op, "Response") then op
    else
      Text.ContainsSuffix(op, "Response");
      op + "Response"
  }

  /** Naming is idempotent: a response name names itself. */
  lemma ResponseNameIdempotent(op: string)
    ensures ResponseName(ResponseName(op)) == ResponseName(op)
  {
  }

  /** The method the response is named after: `unknown` is replaced by the
      answer's `request_method` when that is set to a scalar. */
  function NamedMethod(op: string, result: PhpValue): (m: string)
    ensures op != "unknown" ==> m == op
  {
    if op == "unknown" && result.Arr? && IsSet(result.entries, RequestMethodKey)
       && !Lookup(result.entries, RequestMethodKey).value.Arr?
    then ScalarText(Lookup(result.entries, RequestMethodKey).value)
    else op
  }

  // ----------------------------------------------------------- XML writing


  /** The element name for a key: numeric keys are prefixed with `item` so
      that no element name starts with a digit because of a numeric key. Only
      the string key `success` is named `success`, so the special treatment
      of that field never applies to another entry. */
  function ElementName(k: Key): (name: string)
    ensures |name| > 0 || k == StrKey("")
    ensures name == "success" <==> k == StrKey("success")
    ensures |name| > 0 && Text.IsDigit(name[0]) ==> k.StrKey? && !Numeric(k.s)
    ensures k.StrKey? && !Numeric(k.s) ==> name == k.s
  {
    match k
    case IntKey(i) => assert ("item" + Text.IntToString(i))[0] == 'i'; "item" + Text.IntToString(i)
    case StrKey(s) =>
      if Numeric(s) then
        assert Text.IsDigit(s[0]) && !Text.IsDigit("success"[0]);
        assert ("item" + s)[0] == 'i';
        "item" + s
      else s
  }

  /** Two integer keys share an element name only when they are the same key,
      so the entries of a list are written as distinct elements. */
  lemma ElementNameInjectiveOnInts(i: int, j: int)
    requires ElementName(IntKey(i)) == ElementName(IntKey(j))
    ensures i == j
  {
    assert ElementName(IntKey(i))[4..] == Text.IntToString(i);
    assert ElementName(IntKey(j))[4..] == Text.IntToString(j);
    Text.IntToStringInjective(i, j);
  }

  function Element(name: string, content: string): string {
    "<" + name + ">" + content + "</" + name + ">"
  }

  /** `arrayToXml`: a scalar becomes its escaped text; an array becomes one
      element per entry, in order, with the `success` entry written as
      `true`/`false` and nested arrays written recursively. */
  function ArrayToXml(v: PhpValue): (r: string)
    ensures !v.Arr? ==> forall i :: 0 <= i < |r| ==> r[i] != '<' && r[i] != '>'
    ensures v.Arr? ==> (r == "" <==> v.entries == [])
    decreases v, 1
  {
    match v
    case Arr(es) => EntriesXml(v, es)
    case _ =>
      Text.EscapeHasNoMarkup(ScalarText(v));
      Text.Escape(ScalarText(v))
  }

  /** The elements for a run of entries of `parent`. */
  function EntriesXml(ghost parent: PhpValue, es: seq<Entry>): (r: string)
    requires parent.Arr? && forall e :: e in es ==> e in parent.entries
    ensures r == "" <==> es == []
    decreases parent, 0, |es|
  {
    if |es| == 0 then ""
    else
      assert es[0] in parent.entries;
      var e := es[0];
      var name := ElementName(e.key);
      var content := if name == "success" then (if Truthy(e.value) then "true" else "false")
                     else ArrayToXml(e.value);
      Element(name, content) + EntriesXml(parent, es[1..])
  }

  /** The text written for a run of entries does not depend on which array
      they were taken from. */
  lemma {:induction false} EntriesXmlAnyParent(p: PhpValue, q: PhpValue, es: seq<Entry>)
    requires p.Arr? && forall e :: e in es ==> e in p.entries
    requires q.Arr? && forall e :: e in es ==> e in q.entries
    ensures EntriesXml(p, es) == EntriesXml(q, es)
    decreases |es|
  {
    if |es| > 0 {
      EntriesXmlAnyParent(p, q, es[1..]);
    }
  }

  /** Writing a run of entries is writing its two halves one after the other. */
  lemma {:induction false} EntriesXmlAppend(p: PhpValue, a: seq<Entry>, b: seq<Entry>)
    requires p.Arr? && forall e :: e in a + b ==> e in p.entries
    ensures EntriesXml(p, a + b) == EntriesXml(p, a) + EntriesXml(p, b)
    decreases |a|
  {
    if |a| == 0 {
      assert a + b == b;
    } else {
      assert (a + b)[1..] == a[1..] + b;
      EntriesXmlAppend(p, a[1..], b);
    }
  }

  /** Array-to-XML is a homomorphism from array concatenation to text
      concatenation: each entry contributes its own element. */
  lemma ArrayToXmlConcat(a: seq<Entry>, b: seq<Entry>)
    ensures ArrayToXml(Arr(a + b)) == ArrayToXml(Arr(a)) + ArrayToXml(Arr(b))
  {
    EntriesXmlAppend(Arr(a + b), a, b);
    EntriesXmlAnyParent(Arr(a + b), Arr(a), a);
    EntriesXmlAnyParent(Arr(a + b), Arr(b), b);
  }

  /** One entry is one element; the `success` entry always reads true or false. */
  lemma SingleEntryXml(k: Key, v: PhpValue)
    ensures ElementName(k) == "success" ==>
              ArrayToXml(Arr([Entry(k, v)])) == Element("success", if Truthy(v) then "true" else "false")
    ensures ElementName(k) != "success" ==>
              ArrayToXml(Arr([Entry(k, v)])) == Element(ElementName(k), ArrayToXml(v))
  {
    var es := [Entry(k, v)];
    var p := Arr(es);
    assert es[0] in p.entries && es[1..] == [];
    assert EntriesXml(p, es[1..]) == "";
    assert ArrayToXml(p) == EntriesXml(p, es);
  }

  /** A scalar's text is escaped so an XML reader recovers it exactly and it
      cannot open or close an element. */
  lemma ScalarXmlRoundTrip(v: PhpValue)
    requires !v.Arr?
    ensures Text.Unescape(ArrayToXml(v)) == ScalarText(v)
    ensures forall i :: 0 <= i < |ArrayToXml(v)| ==> ArrayToXml(v)[i] != '<' && ArrayToXml(v)[i] != '>'
  {
    Text.EscapeRoundTrip(ScalarText(v));
    Text.EscapeHasNoMarkup(ScalarText(v));
  }

  // -------------------------------------------------------- request handling

  /** What the controller answers: the response element's name, the
      normalised result and its XML text. */
  datatype SoapReply = SoapReply(responseName: string, result: PhpValue, xml: string)

  /** `handle` after the envelope has been read: infer the method, call the
      service with positional arguments and normalise its answer, or answer
      that the op is unknown; then name and write the response. The
      service is a parameter. */
  function Handle(detected: string, params: map<string, string>,
                  service: (string, seq<PhpValue>) -> PhpValue): (r: SoapReply)
    ensures var m := InferMethod(detected, params);
            && (m in ServiceMethods ==> r.result == Normalise(service(m, MethodParameters(m, params))))
            && (m !in ServiceMethods ==> r.result == UnknownMethodResult(m))
            && Text.Contains(r.responseName, "Response")
  {
    var m := InferMethod(detected, params);
    var result := if m in ServiceMethods then Normalise(service(m, MethodParameters(m, params)))
                  else UnknownMethodResult(m);
    var name := NamedMethod(if Falsy(m) then "unknown" else m, result);
    SoapReply(ResponseName(name), result, ArrayToXml(result))
  }

  /** The `request_method` replacement never changes the name: the response
      is always named after the inferred method, or `unknown` without one. */
  lemma ResponseNamedAfterMethod(detected: string, params: map<string, string>,
                                 service: (string, seq<PhpValue>) -> PhpValue)
    ensures var m := InferMethod(detected, params);
            Handle(detected, params, service).responseName == ResponseName(if Falsy(m) then "unknown" else m)
  {
    var m := InferMethod(detected, params);
    var named := if Falsy(m) then "unknown" else m;
    var result := if m in ServiceMethods then Normalise(service(m, MethodParameters(m, params)))
                  else UnknownMethodResult(m);
    assert Handle(detected, params, service).responseName == ResponseName(NamedMethod(named, result));
    if named == "unknown" {
      UnknownNamesItself(m);
    }
  }

  /** A method that is missing or called `unknown` gets the unknown-method
      answer, whose `request_method` entry is `unknown` again. */
  lemma UnknownNamesItself(m: string)
    requires Falsy(m) || m == "unknown"
    ensures m !in ServiceMethods
    ensures NamedMethod("unknown", UnknownMethodResult(m)) == "unknown"
  {
    assert m !in ServiceMethods by {
      assert |m| != 14 && |m| != 13 && |m| != 11 && |m| != 10;
    }
    assert NamedMethod("unknown", UnknownMethodResult(m)) == "unknown" by {
      var result := UnknownMethodResult(m);
      assert Lookup(result.entries, RequestMethodKey) == Some(Str("unknown"));
      assert ScalarText(Str("unknown")) == "unknown";
    }
  }

  /** A payment reaches the service only when the envelope names it. */
  lemma PaymentOnlyWhenNamed(detected: string, params: map<string, string>)
    requires detected != MakePayment
    ensures InferMethod(detected, params) != MakePayment
  {
  }

  // ------------------------------------------------ the engine's answers

  /** The service's own answers already have the normal shape, so the
      controller passes them on unchanged. */
  lemma EngineAnswerIsNormal(e: Envelope.Envelope)
    ensures Normalise(Envelope.ToPhp(e)) == Envelope.ToPhp(e)
  {
    var es := Envelope.ToPhp(e).entries;
    assert NormalSuccess(es) == e.success;
    AssignSameValue(es, SuccessKey, Bool(e.success));
  }

  /** A named field other than `success` is written as its value wrapped in
      an element of that name. */
  lemma FieldXml(name: string, v: PhpValue)
    requires |name| > 0 && !Text.IsDigit(name[0]) && name != "success"
    ensures ArrayToXml(Arr([Field(name, v)])) == Element(name, ArrayToXml(v))
  {
    SingleEntryXml(StrKey(name), v);
  }

  /** The three fields every answer starts with. */
  lemma HeadXml(success: bool, code: int, message: string)
    ensures ArrayToXml(Arr([Field("success", Bool(success)), Field("code", Int(code)), Field("message", Str(message))])) ==
              Element("success", if success then "true" else "false")
              + Element("code", Text.IntToString(code))
              + Element("message", Text.Escape(message))
  {
    var s := Field("success", Bool(success));
    var c := Field("code", Int(code));
    var m := Field("message", Str(message));
    SuccessCodeXml(success, code);
    FieldXml("message", Str(message));
    ArrayToXmlConcat([s, c], [m]);
    assert [s, c] + [m] == [s, c, m];
  }

  /** The first two fields of an answer: the flag as `true`/`false`, then the code. */
  lemma SuccessCodeXml(success: bool, code: int)
    ensures ArrayToXml(Arr([Field("success", Bool(success)), Field("code", Int(code))])) ==
              Element("success", if success then "true" else "false")
              + Element("code", Text.IntToString(code))
  {
    var s := Field("success", Bool(success));
    var c := Field("code", Int(code));
    assert !Text.IsDigit("success"[0]);
    SingleEntryXml(s.key, s.value);
    FieldXml("code", Int(code));
    Text.IntTextIsPlain(code);
    ArrayToXmlConcat([s], [c]);
    assert [s] + [c] == [s, c];
  }

  /** How an answer is written: success as true/false, the code in decimal,
      the message escaped, then the data element. */
  lemma EngineAnswerXml(e: Envelope.Envelope)
    ensures ArrayToXml(Envelope.ToPhp(e)) ==
              Element("success", if e.success then "true" else "false")
              + Element("code", Text.IntToString(e.code))
              + Element("message", Text.Escape(e.message))
              + (if e.data.NoData? then "" else Element("data", ArrayToXml(Arr(Envelope.DataEntries(e.data)))))
  {
    var head := [Field("success", Bool(e.success)), Field("code", Int(e.code)), Field("message", Str(e.message))];
    HeadXml(e.success, e.code, e.message);
    if !e.data.NoData? {
      var d := Field("data", Arr(Envelope.DataEntries(e.data)));
      FieldXml("data", d.value);
      ArrayToXmlConcat(head, [d]);
      assert Envelope.ToPhp(e).entries == head + [d];
    } else {
      assert Envelope.ToPhp(e).entries == head;
    }
  }
}

=== FILE: text.dfy ===
/** Text helpers the wallet needs: decimal rendering of integers (PHP's
    `(string)` cast of an int, used for the confirmation token and for
    integers written into the XML answer), the inverse digit parser, substring
    search (PHP `strpos(...) !== false`) and the XML escaping performed by
    `htmlspecialchars(..., ENT_XML1 | ENT_QUOTES)`.
 */
module Text {

  predicate IsDigit(c: char) {
    '0' <= c <= '9'
  }

  predicate AllDigits(s: string) {
    forall i :: 0 <= i < |s| ==> IsDigit(s[i])
  }

  function DigitChar(d: nat): (c: char)
    requires d < 10
    ensures IsDigit(c)
  {
    ['0', '1', '2', '3', '4', '5', '6', '7', '8', '9'][d]
  }

  function DigitValue(c: char): (d: nat)
    requires IsDigit(c)
    ensures d < 10
  {
    (c as int - '0' as int) as nat
  }

  /** Decimal rendering without leading zeros. */
  function NatToString(n: nat): string
    decreases n
  {
    if n < 10 then [DigitChar(n)] else NatToString(n / 10) + [DigitChar(n % 10)]
  }

  function IntToString(i: int): string {
    if i < 0 then "-" + NatToString(-i) else NatToString(i)
  }

  /** Value of a string of decimal digits, most significant first. */
  function ParseDigits(s: string): nat
    requires AllDigits(s)
  {
    if |s| == 0 then 0 else 10 * ParseDigits(s[..|s| - 1]) + DigitValue(s[|s| - 1])
  }

  function Pow10(k: nat): (p: nat)
    ensures p >= 1
  {
    if k == 0 then 1 else 10 * Pow10(k - 1)
  }

  lemma DigitRoundTrip(d: nat)
    requires d < 10
    ensures DigitValue(DigitChar(d)) == d
  {
  }

  /** Parsing undoes rendering: the rendering is all digits and reads back as n. */
  lemma {:induction false} NatToStringRoundTrip(n: nat)
    ensures AllDigits(NatToString(n))
    ensures |NatToString(n)| >= 1
    ensures ParseDigits(NatToString(n)) == n
    decreases n
  {
    if n < 10 {
      DigitRoundTrip(n);
    } else {
      NatToStringRoundTrip(n / 10);
      var s := NatToString(n);
      var head := NatToString(n / 10);
      assert s == head + [DigitChar(n % 10)];
      assert s[..|s| - 1] == head;
      DigitRoundTrip(n % 10);
    }
  }

  /** Distinct numbers render as distinct strings. */
  lemma NatToStringInjective(a: nat, b: nat)
    requires NatToString(a) == NatToString(b)
    ensures a == b
  {
    NatToStringRoundTrip(a);
    NatToStringRoundTrip(b);
  }

  /** A rendered integer starts with `-` exactly when it is negative, and
      the rest is the magnitude's digits. */
  lemma IntToStringShape(i: int)
    ensures |IntToString(i)| >= 1
    ensures i < 0 ==> IntToString(i)[0] == '-' && IntToString(i)[1..] == NatToString(-i)
    ensures i >= 0 ==> IsDigit(IntToString(i)[0]) && IntToString(i) == NatToString(i)
  {
    if i < 0 {
      NatToStringRoundTrip(-i);
    } else {
      NatToStringRoundTrip(i);
      assert IsDigit(NatToString(i)[0]);
    }
  }

  /** Distinct integers render as distinct strings: a sign never collides with
      a leading digit. */
  lemma IntToStringInjective(a: int, b: int)
    requires IntToString(a) == IntToString(b)
    ensures a == b
  {
    IntToStringShape(a);
    IntToStringShape(b);
    if a < 0 && b < 0 {
      NatToStringInjective(-a, -b);
    } else if a >= 0 && b >= 0 {
      NatToStringInjective(a, b);
    }
  }

  /** A number with exactly k+1 decimal digits renders as k+1 characters. */
  lemma {:induction false} NatToStringLength(n: nat, k: nat)
    requires Pow10(k) <= n < Pow10(k + 1)
    ensures |NatToString(n)| == k + 1
    decreases k
  {
    if k == 0 {
    } else {
      assert Pow10(k) == 10 * Pow10(k - 1);
      assert Pow10(k + 1) == 10 * Pow10(k);
      NatToStringLength(n / 10, k - 1);
    }
  }

  /** Every six-digit confirmation code renders as exactly six digit characters. */
  lemma SixDigitToken(n: nat)
    requires 100000 <= n <= 999999
    ensures |NatToString(n)| == 6
    ensures AllDigits(NatToString(n))
  {
    assert Pow10(5) == 100000 by {
      assert Pow10(1) == 10;
      assert Pow10(2) == 100;
      assert Pow10(3) == 1000;
      assert Pow10(4) == 10000;
    }
    assert Pow10(6) == 1000000;
    NatToStringLength(n, 5);
    NatToStringRoundTrip(n);
  }

  /** Substring test, PHP `strpos($s, $sub) !== false`. */
  function Contains(s: string, sub: string): bool
    decreases |s|
  {
    if |s| < |sub| then false
    else s[..|sub|] == sub || Contains(s[1..], sub)
  }

  /** A string ending in `sub` contains it. */
  lemma {:induction false} ContainsSuffix(a: string, sub: string)
    ensures Contains(a + sub, sub)
    decreases |a|
  {
    if |a| == 0 {
      assert (a + sub)[..|sub|] == sub;
    } else {
      assert (a + sub)[1..] == a[1..] + sub;
      ContainsSuffix(a[1..], sub);
    }
  }

  /** Entity a character becomes under XML escaping with quotes. */
  function EscapeChar(c: char): string {
    if c == '&' then "&amp;"
    else if c == '<' then "&lt;"
    else if c == '>' then "&gt;"
    else if c == '"' then "&quot;"
    else if c == '\'' then "&apos;"
    else [c]
  }

  /** Escaping never shortens the text and leaves empty text empty. */
  function Escape(s: string): (r: string)
    ensures |r| >= |s|
    ensures r == "" <==> s == ""
  {
    if |s| == 0 then "" else EscapeChar(s[0]) + Escape(s[1..])
  }

  /** The decoder an XML reader applies to character data: the five
      predefined entities back to their characters. */
  function Unescape(s: string): string
    decreases |s|
  {
    if |s| == 0 then ""
    else if s[0] != '&' then [s[0]] + Unescape(s[1..])
    else if |s| >= 5 && s[..5] == "&amp;" then "&" + Unescape(s[5..])
    else if |s| >= 4 && s[..4] == "&lt;" then "<" + Unescape(s[4..])
    else if |s| >= 4 && s[..4] == "&gt;" then ">" + Unescape(s[4..])
    else if |s| >= 6 && s[..6] == "&quot;" then "\"" + Unescape(s[6..])
    else if |s| >= 6 && s[..6] == "&apos;" then "'" + Unescape(s[6..])
    else [s[0]] + Unescape(s[1..])
  }

  /** Decoding an entity-prefixed text consumes exactly the entity. */
  lemma UnescapeEntity(c: char, rest: string)
    requires c in {'&', '<', '>', '"', '\''}
    ensures Unescape(EscapeChar(c) + rest) == [c] + Unescape(rest)
  {
    var e := EscapeChar(c) + rest;
    assert e[0] == '&';
    if c == '&' {
      assert e[..5] == "&amp;" && e[5..] == rest;
    } else if c == '<' {
      assert e[1] == 'l' && e[..4] == "&lt;" && e[4..] == rest;
    } else if c == '>' {
      assert e[1] == 'g' && e[..4] == "&gt;" && e[4..] == rest;
    } else if c == '"' {
      assert e[1] == 'q' && e[..6] == "&quot;" && e[6..] == rest;
    } else {
      assert e[1] == 'a' && e[2] == 'p' && e[..6] == "&apos;" && e[6..] == rest;
    }
  }

  /** A plain character decodes as itself. */
  lemma UnescapePlain(c: char, rest: string)
    requires c !in {'&', '<', '>', '"', '\''}
    ensures Unescape(EscapeChar(c) + rest) == [c] + Unescape(rest)
  {
    var e := EscapeChar(c) + rest;
    assert e[0] == c && e[1..] == rest;
  }

  /** Escaping loses nothing: the reader recovers the original text. */
  lemma {:induction false} EscapeRoundTrip(s: string)
    ensures Unescape(Escape(s)) == s
    decreases |s|
  {
    if |s| == 0 {
    } else {
      EscapeRoundTrip(s[1..]);
      if s[0] in {'&', '<', '>', '"', '\''} {
        UnescapeEntity(s[0], Escape(s[1..]));
      } else {
        UnescapePlain(s[0], Escape(s[1..]));
      }
      assert [s[0]] + s[1..] == s;
    }
  }

  /** Text without any of the five special characters is its own escape. */
  lemma {:induction false} EscapePlainText(s: string)
    requires forall i :: 0 <= i < |s| ==> s[i] !in {'&', '<', '>', '"', '\''}
    ensures Escape(s) == s
    decreases |s|
  {
    if |s| > 0 {
      EscapePlainText(s[1..]);
      assert [s[0]] + s[1..] == s;
    }
  }

  /** A rendered integer needs no escaping. */
  lemma IntTextIsPlain(i: int)
    ensures Escape(IntToString(i)) == IntToString(i)
  {
    var n: nat := if i < 0 then -i else i;
    NatToStringRoundTrip(n);
    var t := IntToString(i);
    assert forall j :: 0 <= j < |t| ==> t[j] == '-' || IsDigit(t[j]);
    EscapePlainText(t);
  }

  /** Escaped text holds no markup delimiter, so it cannot open or close an element. */
  lemma {:induction false} EscapeHasNoMarkup(s: string)
    ensures forall i :: 0 <= i < |Escape(s)| ==> Escape(s)[i] != '<' && Escape(s)[i] != '>'
    decreases |s|
  {
    if |s| > 0 {
      EscapeHasNoMarkup(s[1..]);
      var head := EscapeChar(s[0]);
      assert forall i :: 0 <= i < |head| ==> head[i] != '<' && head[i] != '>';
      assert Escape(s) == head + Escape(s[1..]);
    }
  }
}

=== FILE: transaction_repository.dfy ===
/** The store operations on transactions that the wallet engine relies on:
    lookup of a pending payment by its (session, token) pair, creation of a
    completed deposit and of a pending payment, and insert-or-update.
 */
module TransactionRepository {
  import opened Base
  import opened Ledger

  datatype Saved = Saved(store: Store, transaction: Transaction)

  /** The row `findOneBy(['session_id' => ..., 'token' => ..., 'status' => 'pending'])` accepts. */
  predicate PendingMatch(t: Transaction, sessionId: string, token: string) {
    t.sessionId == Some(sessionId) && t.token == Some(token) && t.status == Pending
  }

  /** Row k is the first pending transaction carrying this session id and token. */
  predicate IsFirstPending(s: Store, k: nat, sessionId: string, token: string) {
    && k < |s.transactions|
    && PendingMatch(s.transactions[k], sessionId, token)
    && forall j :: 0 <= j < k ==> !PendingMatch(s.transactions[j], sessionId, token)
  }

  /** The first pending transaction carrying exactly this session id and token. */
  function FindBySessionAndToken(s: Store, sessionId: string, token: string): (r: Option<Transaction>)
    ensures r.Some? ==> exists k: nat :: IsFirstPending(s, k, sessionId, token) && s.transactions[k] == r.value
    ensures r.None? <==> forall k :: 0 <= k < |s.transactions| ==> !PendingMatch(s.transactions[k], sessionId, token)
  {
    match FirstIndex(s.transactions, (t: Transaction) => PendingMatch(t, sessionId, token))
    case None => None
    case Some(k) => Some(s.transactions[k])
  }

  /** With unique session ids at most one row matches a (session, token)
      pair, so which matching row an unordered `findOneBy` returns does not
      matter. */
  lemma PendingMatchIsUnique(s: Store, i: nat, j: nat, sessionId: string, token: string)
    requires SessionsUnique(s)
    requires i < |s.transactions| && j < |s.transactions|
    requires PendingMatch(s.transactions[i], sessionId, token) && PendingMatch(s.transactions[j], sessionId, token)
    ensures i == j
  {
  }

  /** Persist a transaction: without an identifier it is inserted and given
      the next one, otherwise its row is overwritten; the modification time
      is set in every case. */
  function Save(s: Store, t: Transaction, now: nat): (r: Saved)
    ensures r.transaction.updatedAt == Some(now)
    ensures r.transaction == t.(id := r.transaction.id, updatedAt := Some(now))
    ensures r.store.clients == s.clients
    ensures t.id.None? ==> r.transaction.id == Some(|s.transactions| + 1)
                           && r.store.transactions == s.transactions + [r.transaction]
    ensures t.id.Some? ==> r.transaction.id == t.id && |r.store.transactions| == |s.transactions|
    ensures t.id.Some? ==> forall j :: 0 <= j < |s.transactions| && t.id != Some(j + 1) ==>
                             r.store.transactions[j] == s.transactions[j]
    ensures t.id.Some? && 1 <= t.id.value <= |s.transactions| ==>
              r.store.transactions[t.id.value - 1] == r.transaction
  {
    var stamped := t.(updatedAt := Some(now));
    var saved := if t.id.None? then stamped.(id := Some(|s.transactions| + 1)) else stamped;
    Saved(s.(transactions := Upsert(s.transactions, t.id, saved)), saved)
  }

  /** Saving a transaction that already has row k rewrites exactly that row. */
  lemma SaveOverwrites(s: Store, k: nat, t: Transaction, now: nat)
    requires k < |s.transactions| && t.id == Some(k + 1)
    ensures Save(s, t, now).transaction == t.(updatedAt := Some(now))
    ensures Save(s, t, now).store == s.(transactions := s.transactions[k := t.(updatedAt := Some(now))])
  {
    var r := Save(s, t, now);
    assert r.store.transactions == s.transactions[k := t.(updatedAt := Some(now))];
  }

  /** A completed deposit of `amount` for the client `clientId`, persisted. */
  function CreateDeposit(s: Store, clientId: nat, amount: int, now: nat): (r: Saved)
    ensures r.transaction.txType == Deposit && r.transaction.status == Completed
    ensures r.transaction.clientId == clientId && r.transaction.amount == amount
    ensures r.transaction.sessionId.None? && r.transaction.token.None?
    ensures r.transaction.id == Some(|s.transactions| + 1)
    ensures r.store == s.(transactions := s.transactions + [r.transaction])
  {
    Save(s, Transaction(None, clientId, Deposit, amount, Completed, None, None, now, None), now)
  }

  /** A pending payment of `amount` for the client `clientId`, carrying the
      session id and token that will confirm it, persisted. */
  function CreatePendingPayment(s: Store, clientId: nat, amount: int, sessionId: string, token: string, now: nat)
    : (r: Saved)
    ensures r.transaction.txType == Payment && r.transaction.status == Pending
    ensures r.transaction.clientId == clientId && r.transaction.amount == amount
    ensures r.transaction.sessionId == Some(sessionId) && r.transaction.token == Some(token)
    ensures r.transaction.id == Some(|s.transactions| + 1)
    ensures r.store == s.(transactions := s.transactions + [r.transaction])
    ensures PendingMatch(r.transaction, sessionId, token)
  {
    Save(s, Transaction(None, clientId, Payment, amount, Pending, Some(sessionId), Some(token), now, None), now)
  }

  /** Saving an already saved transaction again never adds a row. */
  lemma SaveTwiceAddsOneRow(s: Store, t: Transaction, now: nat, later: nat)
    ensures var once := Save(s, t, now);
            var twice := Save(once.store, once.transaction, later);
            |twice.store.transactions| == |once.store.transactions| && twice.transaction.id == once.transaction.id
  {
  }

  /** Once a pending payment is saved as completed or cancelled, its
      (session, token) pair finds nothing any more: it is consumed. */
  lemma SettledPaymentIsNotFound(s: Store, k: nat, status: TxStatus, now: nat)
    requires WellFormed(s) && SessionsUnique(s)
    requires k < |s.transactions| && s.transactions[k].sessionId.Some? && s.transactions[k].token.Some?
    requires status != Pending
    ensures var t := s.transactions[k];
            var r := Save(s, t.(status := status), now);
            FindBySessionAndToken(r.store, t.sessionId.value, t.token.value).None?
  {
    var t := s.transactions[k];
    var r := Save(s, t.(status := status), now);
    forall j | 0 <= j < |r.store.transactions|
      ensures !PendingMatch(r.store.transactions[j], t.sessionId.value, t.token.value)
    {
      if j != k {
        assert r.store.transactions[j] == s.transactions[j];
        assert s.transactions[j].sessionId != t.sessionId;
      }
    }
  }
}

=== FILE: wallet_engine.dfy ===
/** The wallet engine: the five operations of the wallet service, each a pure
    function from the ledger and the request to the new ledger and the answer
    envelope. Both storage variants of the service (the Eloquent one and the
    Doctrine one) run the same checks in the same order with the same codes
    and messages, so one model serves both.

    What the service draws from its surroundings is passed in: the clock
    (`now`), the random token and session id of a new payment, and whether
    the store fails while writing (`storeFails`), in which case the unit of
    work is rolled back and the answer is an internal error.
 */
module WalletEngine {
  import opened Base
  import opened Ledger
  import opened Envelope
  import Text
  import ClientRepository
  import TransactionRepository

  datatype Outcome = Outcome(store: Store, response: Envelope)

  /** PHP `empty()` of a string field: both "" and "0" count as missing. */
  predicate Blank(s: string) {
    s == "" || s == "0"
  }

  predicate HasClient(s: Store, document: string, phone: string) {
    exists i :: 0 <= i < |s.clients| && ClientRepository.Matches(s.clients[i], document, phone)
  }

  predicate Taken(s: Store, document: string, email: string, phone: string) {
    exists i :: 0 <= i < |s.clients| && Clashes(s.clients[i], document, email, phone)
  }

  predicate HasPending(s: Store, sessionId: string, token: string) {
    exists k :: 0 <= k < |s.transactions| && TransactionRepository.PendingMatch(s.transactions[k], sessionId, token)
  }

  predicate MissingRegistrationField(document: string, name: string, email: string, phone: string) {
    Blank(document) || Blank(name) || Blank(email) || Blank(phone)
  }

  /** The first two checks of recharge and payment: every field present,
      then a positive amount (an amount of zero is "missing"). */
  predicate MissingMoneyField(document: string, phone: string, amount: int) {
    Blank(document) || Blank(phone) || amount == 0
  }

  /** The row of a client after its balance moved by `delta` and it was saved at `now`. */
  function Moved(c: Client, delta: int, now: nat): Client {
    c.(balance := c.balance + delta, updatedAt := Some(now))
  }

  /** The client a (document, phone) lookup returns sits at the row its id
      names, and that row is the first match. */
  lemma FoundClientRow(s: Store, document: string, phone: string)
    requires WellFormed(s)
    requires ClientRepository.FindByDocumentAndPhone(s, document, phone).Some?
    ensures var c := ClientRepository.FindByDocumentAndPhone(s, document, phone).value;
            && c.id.Some? && 1 <= c.id.value <= |s.clients| && s.clients[c.id.value - 1] == c
            && ClientRepository.IsFirstMatch(s, c.id.value - 1, document, phone)
  {
    var c := ClientRepository.FindByDocumentAndPhone(s, document, phone).value;
    var i: nat :| ClientRepository.IsFirstMatch(s, i, document, phone) && s.clients[i] == c;
    assert s.clients[i].id == Some(i + 1);
    assert c.id.value - 1 == i;
  }

  // -------------------------------------------------------------------------
  // registerClient
  // -------------------------------------------------------------------------

  function RegisterClient(s: Store, document: string, name: string, email: string, phone: string,
                          now: nat, storeFails: bool): (r: Outcome)
    ensures WellFormed(s) ==> WellFormed(r.store)
    ensures r.response.code in DomainCodes
    ensures r.response.success <==> r.response.code == Created
    ensures !r.response.success ==> r.store == s && r.response.data == NoData
    ensures r.response.code == BadRequest <==> MissingRegistrationField(document, name, email, phone)
    ensures r.response.code == Conflict <==>
              !MissingRegistrationField(document, name, email, phone) && Taken(s, document, email, phone)
    ensures r.response.code == InternalError <==>
              !MissingRegistrationField(document, name, email, phone) && !Taken(s, document, email, phone) && storeFails
    ensures r.response.success ==>
              && r.store.clients == s.clients + [Client(Some(|s.clients| + 1), document, name, email, phone, 0, now, Some(now))]
              && r.store.transactions == s.transactions
              && r.response.data == ClientCreated(|s.clients| + 1)
  {
    if MissingRegistrationField(document, name, email, phone) then
      Outcome(s, Failure(BadRequest, MsgRequired))
    else if ClientRepository.Exists(s, document, email, phone) then
      Outcome(s, Failure(Conflict, MsgClientExists))
    else if storeFails then
      Outcome(s, Failure(InternalError, MsgInternal))
    else
      var saved := ClientRepository.Save(s, Client(None, document, name, email, phone, 0, now, None), now);
      Outcome(saved.store, Envelope(true, Created, MsgRegistered, ClientCreated(saved.client.id.value)))
  }

  // -------------------------------------------------------------------------
  // rechargeWallet
  // -------------------------------------------------------------------------

  function RechargeWallet(s: Store, document: string, phone: string, amount: int,
                          now: nat, storeFails: bool): (r: Outcome)
    requires WellFormed(s)
    ensures WellFormed(r.store)
    ensures r.response.code in {Ok, BadRequest, NotFound, InternalError}
    ensures r.response.success <==> r.response.code == Ok
    ensures !r.response.success ==> r.store == s && r.response.data == NoData
    ensures r.response.code == BadRequest <==> MissingMoneyField(document, phone, amount) || amount < 0
    ensures r.response.code == BadRequest ==>
              r.response.message == (if MissingMoneyField(document, phone, amount) then MsgRequired else MsgAmountPositive)
    ensures r.response.code == NotFound <==>
              !MissingMoneyField(document, phone, amount) && amount > 0 && !HasClient(s, document, phone)
    ensures r.response.code == InternalError <==>
              !MissingMoneyField(document, phone, amount) && amount > 0 && HasClient(s, document, phone) && storeFails
    ensures r.response.success ==>
              exists i: nat :: ClientRepository.IsFirstMatch(s, i, document, phone)
                && r.store.clients == s.clients[i := Moved(s.clients[i], amount, now)]
                && r.store.transactions == s.transactions
                     + [Transaction(Some(|s.transactions| + 1), i + 1, Deposit, amount, Completed, None, None, now, Some(now))]
                && r.response.data == Recharged(s.clients[i].balance + amount, |s.transactions| + 1)
  {
    if MissingMoneyField(document, phone, amount) then
      Outcome(s, Failure(BadRequest, MsgRequired))
    else if amount <= 0 then
      Outcome(s, Failure(BadRequest, MsgAmountPositive))
    else match ClientRepository.FindByDocumentAndPhone(s, document, phone)
      case None => Outcome(s, Failure(NotFound, MsgClientNotFound))
      case Some(c) =>
        FoundClientRow(s, document, phone);
        var r := Credit(s, c, amount, now, storeFails);
        var i: nat := c.id.value - 1;
        assert r.response.success ==>
                 && ClientRepository.IsFirstMatch(s, i, document, phone)
                 && r.store.clients == s.clients[i := Moved(s.clients[i], amount, now)]
                 && r.store.transactions == s.transactions
                      + [Transaction(Some(|s.transactions| + 1), i + 1, Deposit, amount, Completed, None, None, now, Some(now))]
                 && r.response.data == Recharged(s.clients[i].balance + amount, |s.transactions| + 1);
        r
  }

  /** The part of a recharge after the client `c` was found: record a
      completed deposit and raise the client's balance, or answer 500 and
      write nothing when the store fails. */
  function Credit(s: Store, c: Client, amount: int, now: nat, storeFails: bool): (r: Outcome)
    requires WellFormed(s)
    requires c.id.Some? && 1 <= c.id.value <= |s.clients| && s.clients[c.id.value - 1] == c
    ensures WellFormed(r.store)
    ensures r.response.success <==> !storeFails
    ensures storeFails ==> r.store == s && r.response == Failure(InternalError, MsgInternal)
    ensures !storeFails ==>
              && r.store.clients == s.clients[c.id.value - 1 := Moved(c, amount, now)]
              && r.store.transactions == s.transactions
                   + [Transaction(Some(|s.transactions| + 1), c.id.value, Deposit, amount, Completed, None, None, now, Some(now))]
              && r.response == Envelope(true, Ok, MsgRecharged, Recharged(c.balance + amount, |s.transactions| + 1))
  {
    if storeFails then
      Outcome(s, Failure(InternalError, MsgInternal))
    else
      var deposit := TransactionRepository.CreateDeposit(s, c.id.value, amount, now);
      ClientRepository.SaveOverwrites(deposit.store, c.id.value - 1, c.(balance := c.balance + amount), now);
      var saved := ClientRepository.Save(deposit.store, c.(balance := c.balance + amount), now);
      UpdateAppendKeepsWellFormed(s, c.id.value - 1, Moved(c, amount, now), deposit.transaction);
      Outcome(saved.store, Envelope(true, Ok, MsgRecharged,
                                    Recharged(saved.client.balance, deposit.transaction.id.value)))
  }

  // -------------------------------------------------------------------------
  // makePayment
  // -------------------------------------------------------------------------

  /** The decimal text of a confirmation code, as stored and answered. */
  function TokenText(token: nat): (t: string)
    requires 100000 <= token <= 999999
    ensures |t| == 6 && Text.AllDigits(t) && Text.ParseDigits(t) == token
  {
    Text.SixDigitToken(token);
    Text.NatToStringRoundTrip(token);
    Text.NatToString(token)
  }

  function MakePayment(s: Store, document: string, phone: string, amount: int,
                       token: nat, sessionId: string, now: nat, storeFails: bool): (r: Outcome)
    requires WellFormed(s)
    requires 100000 <= token <= 999999
    ensures WellFormed(r.store)
    ensures r.response.code in {Ok, BadRequest, NotFound, InternalError}
    ensures r.response.success <==> r.response.code == Ok
    ensures !r.response.success ==> r.store == s && r.response.data == NoData
    ensures r.response.code == BadRequest && r.response.message == MsgRequired <==> MissingMoneyField(document, phone, amount)
    ensures r.response.code == BadRequest && r.response.message == MsgAmountPositive <==>
              !MissingMoneyField(document, phone, amount) && amount < 0
    ensures r.response.code == NotFound <==>
              !MissingMoneyField(document, phone, amount) && amount > 0 && !HasClient(s, document, phone)
    ensures r.response.code == BadRequest && r.response.message == MsgInsufficient <==>
              && !MissingMoneyField(document, phone, amount) && amount > 0
              && exists i: nat :: ClientRepository.IsFirstMatch(s, i, document, phone) && s.clients[i].balance < amount
    ensures r.response.code == InternalError <==>
              && !MissingMoneyField(document, phone, amount) && amount > 0 && storeFails
              && exists i: nat :: ClientRepository.IsFirstMatch(s, i, document, phone) && s.clients[i].balance >= amount
    ensures r.response.success ==>
              && r.store.clients == s.clients
              && r.response.data == PaymentStarted(sessionId, TokenText(token))
              && exists i: nat :: ClientRepository.IsFirstMatch(s, i, document, phone)
                   && s.clients[i].balance >= amount
                   && r.store.transactions == s.transactions
                        + [Transaction(Some(|s.transactions| + 1), i + 1, Payment, amount, Pending,
                                       Some(sessionId), Some(TokenText(token)), now, Some(now))]
  {
    if MissingMoneyField(document, phone, amount) then
      Outcome(s, Failure(BadRequest, MsgRequired))
    else if amount <= 0 then
      Outcome(s, Failure(BadRequest, MsgAmountPositive))
    else match ClientRepository.FindByDocumentAndPhone(s, document, phone)
      case None => Outcome(s, Failure(NotFound, MsgClientNotFound))
      case Some(c) =>
        FoundClientRow(s, document, phone);
        var r := Reserve(s, c, amount, token, sessionId, now, storeFails);
        var i: nat := c.id.value - 1;
        assert ClientRepository.IsFirstMatch(s, i, document, phone) && s.clients[i] == c;
        assert r.response.success ==>
                 r.store.transactions == s.transactions
                   + [Transaction(Some(|s.transactions| + 1), i + 1, Payment, amount, Pending,
                                  Some(sessionId), Some(TokenText(token)), now, Some(now))];
        r
  }

  /** The part of a payment start after the client `c` was found: refuse a
      short balance, answer 500 when the store fails, and otherwise record a
      pending payment under the session and token without moving money. */
  function Reserve(s: Store, c: Client, amount: int, token: nat, sessionId: string, now: nat, storeFails: bool)
    : (r: Outcome)
    requires c.id.Some? && 100000 <= token <= 999999
    ensures r.store.clients == s.clients
    ensures r.response.success <==> c.balance >= amount && !storeFails
    ensures !r.response.success ==> r.store == s && r.response.data == NoData
    ensures r.response.code == BadRequest <==> c.balance < amount
    ensures r.response.code == BadRequest ==> r.response.message == MsgInsufficient
    ensures r.response.code == InternalError <==> c.balance >= amount && storeFails
    ensures r.response.success ==>
              && r.response == Envelope(true, Ok, MsgTokenSent, PaymentStarted(sessionId, TokenText(token)))
              && r.store.transactions == s.transactions
                   + [Transaction(Some(|s.transactions| + 1), c.id.value, Payment, amount, Pending,
                                  Some(sessionId), Some(TokenText(token)), now, Some(now))]
  {
    if c.balance < amount then
      Outcome(s, Failure(BadRequest, MsgInsufficient))
    else if storeFails then
      Outcome(s, Failure(InternalError, MsgInternal))
    else
      var code := TokenText(token);
      var payment := TransactionRepository.CreatePendingPayment(s, c.id.value, amount, sessionId, code, now);
      Outcome(payment.store, Envelope(true, Ok, MsgTokenSent, PaymentStarted(sessionId, code)))
  }

  // -------------------------------------------------------------------------
  // confirmPayment
  // -------------------------------------------------------------------------

  function ConfirmPayment(s: Store, sessionId: string, token: string, now: nat, storeFails: bool): (r: Outcome)
    requires WellFormed(s)
    ensures r.response.code in {Ok, BadRequest, NotFound, InternalError}
    ensures r.response.success <==> r.response.code == Ok
    ensures !r.response.success ==> r.response.data == NoData
    ensures r.response.code == BadRequest && r.response.message == MsgRequired <==> Blank(sessionId) || Blank(token)
    ensures r.response.code == NotFound <==> !Blank(sessionId) && !Blank(token) && !HasPending(s, sessionId, token)
    ensures r.response.code == InternalError <==>
              !Blank(sessionId) && !Blank(token) && HasPending(s, sessionId, token) && storeFails
    ensures r.response.code in {NotFound, InternalError} || r.response.message == MsgRequired ==> r.store == s
  {
    if Blank(sessionId) || Blank(token) then
      Outcome(s, Failure(BadRequest, MsgRequired))
    else match TransactionRepository.FindBySessionAndToken(s, sessionId, token)
      case None => Outcome(s, Failure(NotFound, MsgTransactionNotFound))
      case Some(t) => Settle(s, t, now, storeFails)
  }

  /** The part of a confirmation after the pending payment `t` was found:
      cancel it when its client's balance is short, otherwise debit the
      balance and complete it; a failed write leaves the ledger alone. */
  function Settle(s: Store, t: Transaction, now: nat, storeFails: bool): (r: Outcome)
    requires 1 <= t.clientId <= |s.clients| && t.id.Some?
    ensures r.response.code in {Ok, BadRequest, InternalError}
    ensures r.response.code == InternalError <==> storeFails
    ensures r.response.code == BadRequest ==> r.response.message == MsgInsufficient
    ensures storeFails ==> r.store == s
  {
    var c := s.clients[t.clientId - 1];
    if c.balance < t.amount then
      if storeFails then
        Outcome(s, Failure(InternalError, MsgInternal))
      else
        var cancelled := TransactionRepository.Save(s, t.(status := Cancelled), now);
        Outcome(cancelled.store, Failure(BadRequest, MsgInsufficient))
    else if storeFails then
      Outcome(s, Failure(InternalError, MsgInternal))
    else
      var debited := ClientRepository.Save(s, c.(balance := c.balance - t.amount), now);
      var completed := TransactionRepository.Save(debited.store, t.(status := Completed), now);
      Outcome(completed.store, Envelope(true, Ok, MsgConfirmed,
                                        PaymentConfirmed(completed.transaction.id.value, debited.client.balance)))
  }

  /** What a confirmation does to the pending payment it finds (row k): with
      too little balance the payment is cancelled and the balance is left
      alone; otherwise the balance is debited and the payment completed. */
  lemma ConfirmPaymentSettles(s: Store, k: nat, sessionId: string, token: string, now: nat)
    requires WellFormed(s)
    requires !Blank(sessionId) && !Blank(token)
    requires TransactionRepository.IsFirstPending(s, k, sessionId, token)
    ensures var r := ConfirmPayment(s, sessionId, token, now, false);
            var t := s.transactions[k];
            var c := s.clients[t.clientId - 1];
            if c.balance < t.amount then
              && r.response == Failure(BadRequest, MsgInsufficient)
              && r.store.clients == s.clients
              && r.store.transactions == s.transactions[k := t.(status := Cancelled, updatedAt := Some(now))]
            else
              && r.response == Envelope(true, Ok, MsgConfirmed, PaymentConfirmed(k + 1, c.balance - t.amount))
              && r.store.clients == s.clients[t.clientId - 1 := Moved(c, -t.amount, now)]
              && r.store.transactions == s.transactions[k := t.(status := Completed, updatedAt := Some(now))]
  {
    ConfirmSettlesFound(s, k, sessionId, token, now, false);
    var t := s.transactions[k];
    if s.clients[t.clientId - 1].balance < t.amount {
      SettleCancels(s, k, now);
    } else {
      SettleCompletes(s, k, now);
    }
  }

  /** With both fields present, a confirmation settles the first pending
      payment carrying the session and token. */
  lemma ConfirmSettlesFound(s: Store, k: nat, sessionId: string, token: string, now: nat, storeFails: bool)
    requires WellFormed(s)
    requires !Blank(sessionId) && !Blank(token)
    requires TransactionRepository.IsFirstPending(s, k, sessionId, token)
    ensures ConfirmPayment(s, sessionId, token, now, storeFails) == Settle(s, s.transactions[k], now, storeFails)
  {
    FoundIsFirstPending(s, k, sessionId, token);
  }

  /** Settling a payment whose client is short cancels it and touches no balance. */
  lemma SettleCancels(s: Store, k: nat, now: nat)
    requires WellFormed(s) && k < |s.transactions|
    requires s.clients[s.transactions[k].clientId - 1].balance < s.transactions[k].amount
    ensures var r := Settle(s, s.transactions[k], now, false);
            var t := s.transactions[k];
            && r.response == Failure(BadRequest, MsgInsufficient)
            && r.store.clients == s.clients
            && r.store.transactions == s.transactions[k := t.(status := Cancelled, updatedAt := Some(now))]
  {
    var t := s.transactions[k];
    assert t.id == Some(k + 1);
    TransactionRepository.SaveOverwrites(s, k, t.(status := Cancelled), now);
  }

  /** Settling a covered payment debits exactly its amount and completes it. */
  lemma SettleCompletes(s: Store, k: nat, now: nat)
    requires WellFormed(s) && k < |s.transactions|
    requires s.clients[s.transactions[k].clientId - 1].balance >= s.transactions[k].amount
    ensures var r := Settle(s, s.transactions[k], now, false);
            var t := s.transactions[k];
            var c := s.clients[t.clientId - 1];
            && r.response == Envelope(true, Ok, MsgConfirmed, PaymentConfirmed(k + 1, c.balance - t.amount))
            && r.store.clients == s.clients[t.clientId - 1 := Moved(c, -t.amount, now)]
            && r.store.transactions == s.transactions[k := t.(status := Completed, updatedAt := Some(now))]
  {
    var t := s.transactions[k];
    var c := s.clients[t.clientId - 1];
    assert t.id == Some(k + 1) && c.id == Some(t.clientId);
    ClientRepository.SaveOverwrites(s, t.clientId - 1, c.(balance := c.balance - t.amount), now);
    var debited := ClientRepository.Save(s, c.(balance := c.balance - t.amount), now);
    TransactionRepository.SaveOverwrites(debited.store, k, t.(status := Completed), now);
  }

  /** A confirmation keeps the schema: it rewrites one client and one
      transaction in place, ids and foreign key untouched. */
  lemma ConfirmKeepsWellFormed(s: Store, sessionId: string, token: string, now: nat, storeFails: bool)
    requires WellFormed(s)
    ensures WellFormed(ConfirmPayment(s, sessionId, token, now, storeFails).store)
  {
    if !Blank(sessionId) && !Blank(token) && HasPending(s, sessionId, token) {
      var found := TransactionRepository.FindBySessionAndToken(s, sessionId, token);
      assert found.Some?;
      var k: nat :| TransactionRepository.IsFirstPending(s, k, sessionId, token) && s.transactions[k] == found.value;
      ConfirmSettlesFound(s, k, sessionId, token, now, storeFails);
      SettleKeepsWellFormed(s, k, now, storeFails);
    }
  }

  /** Settling rewrites a client and a transaction in place, so the schema holds. */
  lemma SettleKeepsWellFormed(s: Store, k: nat, now: nat, storeFails: bool)
    requires WellFormed(s) && k < |s.transactions|
    ensures WellFormed(Settle(s, s.transactions[k], now, storeFails).store)
  {
    var t := s.transactions[k];
    if !storeFails {
      if s.clients[t.clientId - 1].balance < t.amount {
        SettleCancels(s, k, now);
      } else {
        SettleCompletes(s, k, now);
      }
    }
  }

  /** The pending payment the lookup returns is the one at the first matching row. */
  lemma FoundIsFirstPending(s: Store, k: nat, sessionId: string, token: string)
    requires TransactionRepository.IsFirstPending(s, k, sessionId, token)
    ensures TransactionRepository.FindBySessionAndToken(s, sessionId, token) == Some(s.transactions[k])
  {
    var found := TransactionRepository.FindBySessionAndToken(s, sessionId, token);
    assert found.Some?;
    var k': nat :| TransactionRepository.IsFirstPending(s, k', sessionId, token) && s.transactions[k'] == found.value;
    assert !(k' < k) && !(k < k');
  }

  // -------------------------------------------------------------------------
  // getBalance
  // -------------------------------------------------------------------------

  /** A read-only query: it returns an answer and no ledger at all. */
  function GetBalance(s: Store, document: string, phone: string): (e: Envelope)
    requires WellFormed(s)
    ensures e.code in {Ok, BadRequest, NotFound}
    ensures e.success <==> e.code == Ok
    ensures e.code == BadRequest <==> Blank(document) || Blank(phone)
    ensures e.code == NotFound <==> !Blank(document) && !Blank(phone) && !HasClient(s, document, phone)
    ensures e.success ==>
              exists i: nat :: ClientRepository.IsFirstMatch(s, i, document, phone)
                && e.data == BalanceSnapshot(i + 1, s.clients[i].document, s.clients[i].name, s.clients[i].balance)
  {
    if Blank(document) || Blank(phone) then
      Failure(BadRequest, MsgRequired)
    else match ClientRepository.FindByDocumentAndPhone(s, document, phone)
      case None => Failure(NotFound, MsgClientNotFound)
      case Some(c) =>
        Envelope(true, Ok, MsgBalance, BalanceSnapshot(c.id.value, c.document, c.name, c.balance))
  }
}

=== FILE: wallet_invariants.dfy ===
/** The ledger invariants the wallet engine keeps, the one-shot consumption
    of pending payments, and the request-level round trips of the service.
 */
module WalletInvariants {
  import opened Base
  import opened Ledger
  import opened Envelope
  import opened WalletEngine
  import ClientRepository
  import TransactionRepository

  /** The five operations as one closed request type. */
  datatype Request =
    | Register(document: string, name: string, email: string, phone: string)
    | Recharge(document: string, phone: string, amount: int)
    | StartPayment(document: string, phone: string, amount: int)
    | Confirm(sessionId: string, token: string)
    | Balance(document: string, phone: string)

  /** What a request draws from outside the ledger: the clock, the random
      confirmation code and session id, and whether the store fails on write. */
  datatype Context = Context(now: nat, token: nat, sessionId: string, storeFails: bool)

  predicate GoodContext(ctx: Context) {
    100000 <= ctx.token <= 999999
  }

  /** The session id is new to the ledger, as a freshly drawn UUID is. */
  predicate FreshSession(s: Store, sessionId: string) {
    forall k :: 0 <= k < |s.transactions| ==> s.transactions[k].sessionId != Some(sessionId)
  }

  function Step(s: Store, req: Request, ctx: Context): (r: Outcome)
    requires WellFormed(s) && GoodContext(ctx)
    ensures r.response.code in DomainCodes
    ensures WellFormed(r.store)
    ensures req.Balance? ==> r.store == s
    ensures !r.response.success ==> r.store == s || (req.Confirm? && r.response.message == MsgInsufficient)
  {
    match req
    case Register(d, n, e, p) => RegisterClient(s, d, n, e, p, ctx.now, ctx.storeFails)
    case Recharge(d, p, a) => RechargeWallet(s, d, p, a, ctx.now, ctx.storeFails)
    case StartPayment(d, p, a) => MakePayment(s, d, p, a, ctx.token, ctx.sessionId, ctx.now, ctx.storeFails)
    case Confirm(sid, tok) =>
      ConfirmKeepsWellFormed(s, sid, tok, ctx.now, ctx.storeFails);
      ConfirmPayment(s, sid, tok, ctx.now, ctx.storeFails)
    case Balance(d, p) => Outcome(s, GetBalance(s, d, p))
  }

  // -------------------------------------------------------------------------
  // Invariant preservation, operation by operation.
  // -------------------------------------------------------------------------

  lemma RegisterPreservesValid(s: Store, document: string, name: string, email: string, phone: string,
                               now: nat, storeFails: bool)
    requires Valid(s)
    ensures Valid(RegisterClient(s, document, name, email, phone, now, storeFails).store)
  {
    var r := RegisterClient(s, document, name, email, phone, now, storeFails);
    if r.response.success {
      AddClientKeepsValid(s, Client(Some(|s.clients| + 1), document, name, email, phone, 0, now, Some(now)));
    }
  }

  lemma RechargePreservesValid(s: Store, document: string, phone: string, amount: int,
                               now: nat, storeFails: bool)
    requires Valid(s)
    ensures Valid(RechargeWallet(s, document, phone, amount, now, storeFails).store)
  {
    var r := RechargeWallet(s, document, phone, amount, now, storeFails);
    if r.response.success {
      var i: nat :| ClientRepository.IsFirstMatch(s, i, document, phone)
                   && r.store.clients == s.clients[i := Moved(s.clients[i], amount, now)]
                   && r.store.transactions == s.transactions + [DepositRow(s, i, amount, now)];
      DepositKeepsValid(s, i, amount, now);
    }
  }

  lemma MakePaymentPreservesValid(s: Store, document: string, phone: string, amount: int,
                                  token: nat, sessionId: string, now: nat, storeFails: bool)
    requires Valid(s)
    requires 100000 <= token <= 999999
    requires FreshSession(s, sessionId)
    ensures Valid(MakePayment(s, document, phone, amount, token, sessionId, now, storeFails).store)
  {
    var r := MakePayment(s, document, phone, amount, token, sessionId, now, storeFails);
    if r.response.success {
      var i: nat :| ClientRepository.IsFirstMatch(s, i, document, phone)
                   && s.clients[i].balance >= amount
                   && r.store.transactions == s.transactions + [PaymentRow(s, i, amount, sessionId, TokenText(token), now)];
      PendingPaymentKeepsValid(s, i, amount, sessionId, TokenText(token), now);
    }
  }

  lemma ConfirmPreservesValid(s: Store, sessionId: string, token: string, now: nat, storeFails: bool)
    requires Valid(s)
    ensures Valid(ConfirmPayment(s, sessionId, token, now, storeFails).store)
  {
    var r := ConfirmPayment(s, sessionId, token, now, storeFails);
    if r.store != s {
      var found := TransactionRepository.FindBySessionAndToken(s, sessionId, token);
      var k: nat :| TransactionRepository.IsFirstPending(s, k, sessionId, token) && s.transactions[k] == found.value;
      ConfirmPaymentSettles(s, k, sessionId, token, now);
      var t := s.transactions[k];
      if s.clients[t.clientId - 1].balance < t.amount {
        CancelKeepsValid(s, k, now);
      } else {
        CompleteKeepsValid(s, k, now);
      }
    }
  }

  // -------------------------------------------------------------------------
  // The ledger transitions the operations perform, each keeping Valid.
  // -------------------------------------------------------------------------

  function DepositRow(s: Store, i: nat, amount: int, now: nat): Transaction {
    Transaction(Some(|s.transactions| + 1), i + 1, Deposit, amount, Completed, None, None, now, Some(now))
  }

  function PaymentRow(s: Store, i: nat, amount: int, sessionId: string, token: string, now: nat): Transaction {
    Transaction(Some(|s.transactions| + 1), i + 1, Payment, amount, Pending, Some(sessionId), Some(token), now, Some(now))
  }

  /** A new client with zero balance and keys unused by any stored client. */
  lemma AddClientKeepsValid(s: Store, c: Client)
    requires Valid(s)
    requires c.id == Some(|s.clients| + 1) && c.balance == 0
    requires forall i :: 0 <= i < |s.clients| ==> !Clashes(s.clients[i], c.document, c.email, c.phone)
    ensures Valid(s.(clients := s.clients + [c]))
  {
    var t := s.(clients := s.clients + [c]);
    NetOfStranger(s.transactions, |s.clients| + 1);
    assert forall i :: 0 <= i < |s.clients| ==> t.clients[i] == s.clients[i];
    assert UniqueKeys(t);
    assert Conserved(t);
  }

  /** A completed deposit for client i, with its balance raised by the amount. */
  lemma DepositKeepsValid(s: Store, i: nat, amount: int, now: nat)
    requires Valid(s) && i < |s.clients| && amount > 0
    ensures Valid(Store(s.clients[i := Moved(s.clients[i], amount, now)], s.transactions + [DepositRow(s, i, amount, now)]))
  {
    var d := DepositRow(s, i, amount, now);
    var t := Store(s.clients[i := Moved(s.clients[i], amount, now)], s.transactions + [d]);
    forall j | 0 <= j < |t.clients|
      ensures t.clients[j].balance == Net(t.transactions, j + 1)
    {
      NetAppend(s.transactions, d, j + 1);
    }
    assert UniqueKeys(t);
    assert SessionsUnique(t);
  }

  /** A new pending payment for client i under a fresh session; no balance moves. */
  lemma PendingPaymentKeepsValid(s: Store, i: nat, amount: int, sessionId: string, token: string, now: nat)
    requires Valid(s) && i < |s.clients| && amount > 0
    requires FreshSession(s, sessionId)
    ensures Valid(s.(transactions := s.transactions + [PaymentRow(s, i, amount, sessionId, token, now)]))
  {
    var p := PaymentRow(s, i, amount, sessionId, token, now);
    var t := s.(transactions := s.transactions + [p]);
    forall j | 0 <= j < |t.clients|
      ensures t.clients[j].balance == Net(t.transactions, j + 1)
    {
      NetAppend(s.transactions, p, j + 1);
    }
    assert SessionsUnique(t);
  }

  /** A pending payment turned cancelled; no balance moves. */
  lemma CancelKeepsValid(s: Store, k: nat, now: nat)
    requires Valid(s) && k < |s.transactions| && s.transactions[k].status == Pending
    ensures var t := s.transactions[k];
            Valid(s.(transactions := s.transactions[k := t.(status := Cancelled, updatedAt := Some(now))]))
  {
    var t := s.transactions[k];
    var t' := t.(status := Cancelled, updatedAt := Some(now));
    var u := s.(transactions := s.transactions[k := t']);
    forall j | 0 <= j < |u.clients|
      ensures u.clients[j].balance == Net(u.transactions, j + 1)
    {
      NetUpdate(s.transactions, k, t', j + 1);
    }
    assert SessionsUnique(u);
  }

  /** A pending payment turned completed, with its client's balance lowered
      by the amount, which the balance covers. */
  lemma CompleteKeepsValid(s: Store, k: nat, now: nat)
    requires Valid(s) && k < |s.transactions| && s.transactions[k].status == Pending
    requires var t := s.transactions[k]; s.clients[t.clientId - 1].balance >= t.amount
    ensures var t := s.transactions[k];
            var c := s.clients[t.clientId - 1];
            Valid(Store(s.clients[t.clientId - 1 := Moved(c, -t.amount, now)],
                        s.transactions[k := t.(status := Completed, updatedAt := Some(now))]))
  {
    var t := s.transactions[k];
    var c := s.clients[t.clientId - 1];
    var t' := t.(status := Completed, updatedAt := Some(now));
    var u := Store(s.clients[t.clientId - 1 := Moved(c, -t.amount, now)], s.transactions[k := t']);
    CompleteConserves(s, k, now);
    assert WellFormed(u) && NonNegativeBalances(u) && TransactionsWellShaped(u);
    assert UniqueKeys(u) by {
      forall i, j | 0 <= i < j < |u.clients|
        ensures u.clients[i].document != u.clients[j].document
        ensures u.clients[i].email != u.clients[j].email
        ensures u.clients[i].phone != u.clients[j].phone
      {
        assert u.clients[i].document == s.clients[i].document && u.clients[i].email == s.clients[i].email
               && u.clients[i].phone == s.clients[i].phone;
        assert u.clients[j].document == s.clients[j].document && u.clients[j].email == s.clients[j].email
               && u.clients[j].phone == s.clients[j].phone;
      }
    }
    assert SessionsUnique(u) by {
      forall i, j | 0 <= i < j < |u.transactions| && u.transactions[i].sessionId.Some?
        ensures u.transactions[i].sessionId != u.transactions[j].sessionId
      {
        assert u.transactions[i].sessionId == s.transactions[i].sessionId;
        assert u.transactions[j].sessionId == s.transactions[j].sessionId;
      }
    }
  }

  /** Completing a covered pending payment while lowering its client's
      balance by the amount keeps every balance accounted for. */
  lemma CompleteConserves(s: Store, k: nat, now: nat)
    requires Valid(s) && k < |s.transactions| && s.transactions[k].status == Pending
    ensures var t := s.transactions[k];
            var c := s.clients[t.clientId - 1];
            Conserved(Store(s.clients[t.clientId - 1 := Moved(c, -t.amount, now)],
                            s.transactions[k := t.(status := Completed, updatedAt := Some(now))]))
  {
    var t := s.transactions[k];
    var c := s.clients[t.clientId - 1];
    var t' := t.(status := Completed, updatedAt := Some(now));
    var u := Store(s.clients[t.clientId - 1 := Moved(c, -t.amount, now)], s.transactions[k := t']);
    assert t.txType == Payment;
    forall j | 0 <= j < |u.clients|
      ensures u.clients[j].balance == Net(u.transactions, j + 1)
    {
      NetUpdate(s.transactions, k, t', j + 1);
    }
  }

  /** Every request keeps the ledger valid: balances never negative, keys
      unique, each balance exactly accounted for by its transaction records. */
  lemma StepPreservesValid(s: Store, req: Request, ctx: Context)
    requires Valid(s) && GoodContext(ctx)
    requires req.StartPayment? ==> FreshSession(s, ctx.sessionId)
    ensures Valid(Step(s, req, ctx).store)
  {
    match req
    case Register(d, n, e, p) => RegisterPreservesValid(s, d, n, e, p, ctx.now, ctx.storeFails);
    case Recharge(d, p, a) => RechargePreservesValid(s, d, p, a, ctx.now, ctx.storeFails);
    case StartPayment(d, p, a) => MakePaymentPreservesValid(s, d, p, a, ctx.token, ctx.sessionId, ctx.now, ctx.storeFails);
    case Confirm(sid, tok) => ConfirmPreservesValid(s, sid, tok, ctx.now, ctx.storeFails);
    case Balance(d, p) =>
  }

  // -------------------------------------------------------------------------
  // A pending payment is consumed at most once.
  // -------------------------------------------------------------------------

  /** Once a confirmation has found its pending payment, whether it completed
      or cancelled it, confirming the same pair again finds nothing. */
  lemma ConfirmReplayIsNotFound(s: Store, sessionId: string, token: string, now: nat, later: nat, storeFails: bool)
    requires Valid(s)
    requires !Blank(sessionId) && !Blank(token) && HasPending(s, sessionId, token)
    ensures var first := ConfirmPayment(s, sessionId, token, now, false);
            && first.response.code in {Ok, BadRequest}
            && ConfirmPayment(first.store, sessionId, token, later, storeFails).response.code == NotFound
            && SessionUsed(first.store, sessionId) && !HasPending(first.store, sessionId, token)
  {
    var found := TransactionRepository.FindBySessionAndToken(s, sessionId, token);
    var k: nat :| TransactionRepository.IsFirstPending(s, k, sessionId, token) && s.transactions[k] == found.value;
    ConfirmPaymentSettles(s, k, sessionId, token, now);
    var first := ConfirmPayment(s, sessionId, token, now, false);
    ConfirmPreservesValid(s, sessionId, token, now, false);
    var t := s.transactions[k];
    forall j | 0 <= j < |first.store.transactions|
      ensures !TransactionRepository.PendingMatch(first.store.transactions[j], sessionId, token)
    {
      if j != k {
        assert first.store.transactions[j] == s.transactions[j];
        assert s.transactions[j].sessionId != t.sessionId;
      }
    }
    assert first.store.transactions[k].sessionId == Some(sessionId);
  }

  /** Some transaction of the ledger carries this session id. */
  predicate SessionUsed(s: Store, sessionId: string) {
    exists k :: 0 <= k < |s.transactions| && s.transactions[k].sessionId == Some(sessionId)
  }

  /** Appending rows that do not carry the session keeps a settled pair settled. */
  lemma AppendKeepsSettled(s: Store, u: Store, sessionId: string, token: string)
    requires SessionUsed(s, sessionId) && !HasPending(s, sessionId, token)
    requires |u.transactions| >= |s.transactions| && u.transactions[..|s.transactions|] == s.transactions
    requires forall k :: |s.transactions| <= k < |u.transactions| ==> u.transactions[k].sessionId != Some(sessionId)
    ensures SessionUsed(u, sessionId) && !HasPending(u, sessionId, token)
  {
    var n := |s.transactions|;
    var k0 :| 0 <= k0 < n && s.transactions[k0].sessionId == Some(sessionId);
    assert u.transactions[k0] == s.transactions[k0];
    forall k | 0 <= k < n
      ensures u.transactions[k] == s.transactions[k]
    {
      assert u.transactions[k] == u.transactions[..n][k];
    }
  }

  /** Rewriting one row in place, keeping its session id and taking it out
      of pending, keeps a settled pair settled. */
  lemma RewriteKeepsSettled(s: Store, u: Store, k: nat, sessionId: string, token: string)
    requires SessionUsed(s, sessionId) && !HasPending(s, sessionId, token)
    requires k < |s.transactions| == |u.transactions|
    requires forall j :: 0 <= j < |s.transactions| && j != k ==> u.transactions[j] == s.transactions[j]
    requires u.transactions[k].sessionId == s.transactions[k].sessionId && u.transactions[k].status != Pending
    ensures SessionUsed(u, sessionId) && !HasPending(u, sessionId, token)
  {
    var k0 :| 0 <= k0 < |s.transactions| && s.transactions[k0].sessionId == Some(sessionId);
    assert u.transactions[k0].sessionId == Some(sessionId);
    forall j | 0 <= j < |u.transactions|
      ensures !TransactionRepository.PendingMatch(u.transactions[j], sessionId, token)
    {
      if j != k {
        assert u.transactions[j] == s.transactions[j];
      }
    }
  }

  /** Settling a payment keeps a settled pair settled. */
  lemma SettleKeepsSettled(s: Store, k: nat, now: nat, sessionId: string, token: string)
    requires WellFormed(s) && k < |s.transactions|
    requires SessionUsed(s, sessionId) && !HasPending(s, sessionId, token)
    ensures var r := Settle(s, s.transactions[k], now, false).store;
            SessionUsed(r, sessionId) && !HasPending(r, sessionId, token)
  {
    var t := s.transactions[k];
    var r := Settle(s, t, now, false).store;
    if s.clients[t.clientId - 1].balance < t.amount {
      SettleCancels(s, k, now);
      assert r.transactions == s.transactions[k := t.(status := Cancelled, updatedAt := Some(now))];
    } else {
      SettleCompletes(s, k, now);
      assert r.transactions == s.transactions[k := t.(status := Completed, updatedAt := Some(now))];
    }
    RewriteKeepsSettled(s, r, k, sessionId, token);
  }

  /** A confirmation keeps a settled pair settled: it only ever settles the
      pending payment it finds, keeping that row's session id. */
  lemma ConfirmKeepsSettled(s: Store, sid: string, tok: string, now: nat, storeFails: bool,
                            sessionId: string, token: string)
    requires Valid(s)
    requires SessionUsed(s, sessionId) && !HasPending(s, sessionId, token)
    ensures var r := ConfirmPayment(s, sid, tok, now, storeFails).store;
            SessionUsed(r, sessionId) && !HasPending(r, sessionId, token)
  {
    if !Blank(sid) && !Blank(tok) && HasPending(s, sid, tok) && !storeFails {
      var found := TransactionRepository.FindBySessionAndToken(s, sid, tok);
      assert found.Some?;
      var k: nat :| TransactionRepository.IsFirstPending(s, k, sid, tok) && s.transactions[k] == found.value;
      ConfirmSettlesFound(s, k, sid, tok, now, false);
      SettleKeepsSettled(s, k, now, sessionId, token);
    } else if !Blank(sid) && !Blank(tok) && HasPending(s, sid, tok) {
      assert ConfirmPayment(s, sid, tok, now, storeFails).response.code == InternalError;
    }
  }

  /** A recharge appends one deposit, which carries no session. */
  lemma RechargeKeepsSettled(s: Store, document: string, phone: string, amount: int, now: nat, storeFails: bool,
                             sessionId: string, token: string)
    requires WellFormed(s)
    requires SessionUsed(s, sessionId) && !HasPending(s, sessionId, token)
    ensures var r := RechargeWallet(s, document, phone, amount, now, storeFails).store;
            SessionUsed(r, sessionId) && !HasPending(r, sessionId, token)
  {
    var r := RechargeWallet(s, document, phone, amount, now, storeFails).store;
    assert s.transactions[..|s.transactions|] == s.transactions;
    AppendKeepsSettled(s, r, sessionId, token);
  }

  /** A payment start appends one payment under a fresh session. */
  lemma StartKeepsSettled(s: Store, document: string, phone: string, amount: int, token: nat, sid: string,
                          now: nat, storeFails: bool, sessionId: string, code: string)
    requires WellFormed(s) && 100000 <= token <= 999999 && FreshSession(s, sid)
    requires SessionUsed(s, sessionId) && !HasPending(s, sessionId, code)
    ensures var r := MakePayment(s, document, phone, amount, token, sid, now, storeFails).store;
            SessionUsed(r, sessionId) && !HasPending(r, sessionId, code)
  {
    var r := MakePayment(s, document, phone, amount, token, sid, now, storeFails).store;
    var k0 :| 0 <= k0 < |s.transactions| && s.transactions[k0].sessionId == Some(sessionId);
    assert sessionId != sid;
    assert s.transactions[..|s.transactions|] == s.transactions;
    AppendKeepsSettled(s, r, sessionId, code);
  }

  /** A (session, token) pair whose payment has been settled stays settled
      whatever request comes next: no request turns a completed or cancelled
      payment back into a pending one, and no new payment takes a used session. */
  lemma SettledPairStaysSettled(s: Store, req: Request, ctx: Context, sessionId: string, token: string)
    requires Valid(s) && GoodContext(ctx)
    requires req.StartPayment? ==> FreshSession(s, ctx.sessionId)
    requires SessionUsed(s, sessionId) && !HasPending(s, sessionId, token)
    ensures var r := Step(s, req, ctx).store;
            SessionUsed(r, sessionId) && !HasPending(r, sessionId, token)
  {
    match req
    case Register(d, nm, e, p) =>
      assert Step(s, req, ctx).store.transactions == s.transactions;
    case Recharge(d, p, a) =>
      RechargeKeepsSettled(s, d, p, a, ctx.now, ctx.storeFails, sessionId, token);
    case StartPayment(d, p, a) =>
      StartKeepsSettled(s, d, p, a, ctx.token, ctx.sessionId, ctx.now, ctx.storeFails, sessionId, token);
    case Confirm(sid, tok) =>
      ConfirmKeepsSettled(s, sid, tok, ctx.now, ctx.storeFails, sessionId, token);
    case Balance(d, p) =>
  }

  /** The requests of a trace can be run one after the other from a ledger
      with its schema in place: every context is well drawn and every payment
      start draws a session id new to the ledger at that point. */
  predicate Admissible(s: Store, reqs: seq<Request>, ctxs: seq<Context>)
    requires WellFormed(s)
    decreases |reqs|
  {
    && |reqs| == |ctxs|
    && (|reqs| > 0 ==>
          && GoodContext(ctxs[0])
          && (reqs[0].StartPayment? ==> FreshSession(s, ctxs[0].sessionId))
          && Admissible(Step(s, reqs[0], ctxs[0]).store, reqs[1..], ctxs[1..]))
  }

  /** The ledger after running a trace of requests. */
  function Run(s: Store, reqs: seq<Request>, ctxs: seq<Context>): (r: Store)
    requires WellFormed(s) && Admissible(s, reqs, ctxs)
    ensures WellFormed(r)
    decreases |reqs|
  {
    if |reqs| == 0 then s else Run(Step(s, reqs[0], ctxs[0]).store, reqs[1..], ctxs[1..])
  }

  /** Any trace of requests keeps a valid ledger valid. */
  lemma {:induction false} RunPreservesValid(s: Store, reqs: seq<Request>, ctxs: seq<Context>)
    requires Valid(s) && Admissible(s, reqs, ctxs)
    ensures Valid(Run(s, reqs, ctxs))
    decreases |reqs|
  {
    if |reqs| > 0 {
      StepPreservesValid(s, reqs[0], ctxs[0]);
      RunPreservesValid(Step(s, reqs[0], ctxs[0]).store, reqs[1..], ctxs[1..]);
    }
  }

  /** A settled pair stays settled across any trace of requests. */
  lemma {:induction false} SettledPairStaysSettledOnRun(s: Store, reqs: seq<Request>, ctxs: seq<Context>,
                                                        sessionId: string, token: string)
    requires Valid(s) && Admissible(s, reqs, ctxs)
    requires SessionUsed(s, sessionId) && !HasPending(s, sessionId, token)
    ensures SessionUsed(Run(s, reqs, ctxs), sessionId) && !HasPending(Run(s, reqs, ctxs), sessionId, token)
    decreases |reqs|
  {
    if |reqs| > 0 {
      SettledPairStaysSettled(s, reqs[0], ctxs[0], sessionId, token);
      StepPreservesValid(s, reqs[0], ctxs[0]);
      SettledPairStaysSettledOnRun(Step(s, reqs[0], ctxs[0]).store, reqs[1..], ctxs[1..], sessionId, token);
    }
  }

  /** A pending payment is consumed at most once: after a confirmation has
      found it, and after any trace of further requests, confirming the same
      session and token again answers 404. */
  lemma PaymentConsumedOnce(s: Store, sessionId: string, token: string, ctx: Context,
                            reqs: seq<Request>, ctxs: seq<Context>, later: nat, storeFails: bool)
    requires Valid(s)
    requires !Blank(sessionId) && !Blank(token) && HasPending(s, sessionId, token)
    requires !ctx.storeFails
    requires Admissible(s, [Confirm(sessionId, token)] + reqs, [ctx] + ctxs)
    ensures Step(s, Confirm(sessionId, token), ctx).response.code in {Ok, BadRequest}
    ensures ConfirmPayment(Run(s, [Confirm(sessionId, token)] + reqs, [ctx] + ctxs),
                           sessionId, token, later, storeFails).response.code == NotFound
  {
    var first := Step(s, Confirm(sessionId, token), ctx);
    assert first == ConfirmPayment(s, sessionId, token, ctx.now, false);
    assert ([Confirm(sessionId, token)] + reqs)[1..] == reqs;
    assert ([ctx] + ctxs)[1..] == ctxs;
    assert Run(s, [Confirm(sessionId, token)] + reqs, [ctx] + ctxs) == Run(first.store, reqs, ctxs);
    ConfirmReplayIsNotFound(s, sessionId, token, ctx.now, later, storeFails);
    ConfirmPreservesValid(s, sessionId, token, ctx.now, false);
    SettledPairStaysSettledOnRun(first.store, reqs, ctxs, sessionId, token);
    RunPreservesValid(first.store, reqs, ctxs);
  }

  // -------------------------------------------------------------------------
  // Request-level round trips.
  // -------------------------------------------------------------------------

  /** The exact outcome of starting a payment for the client at row i. */
  lemma MakePaymentAppends(s: Store, i: nat, document: string, phone: string, amount: int,
                           token: nat, sessionId: string, now: nat)
    requires WellFormed(s) && 100000 <= token <= 999999
    requires ClientRepository.IsFirstMatch(s, i, document, phone)
    requires !MissingMoneyField(document, phone, amount) && 0 < amount <= s.clients[i].balance
    ensures MakePayment(s, document, phone, amount, token, sessionId, now, false)
            == Outcome(s.(transactions := s.transactions + [PaymentRow(s, i, amount, sessionId, TokenText(token), now)]),
                       Envelope(true, Ok, MsgTokenSent, PaymentStarted(sessionId, TokenText(token))))
  {
    var found := ClientRepository.FindByDocumentAndPhone(s, document, phone);
    var i': nat :| ClientRepository.IsFirstMatch(s, i', document, phone) && s.clients[i'] == found.value;
    assert !(i < i') && !(i' < i);
  }

  /** A payment started with enough balance and confirmed right away with the
      answered session and token completes and debits exactly its amount. */
  lemma StartThenConfirm(s: Store, i: nat, document: string, phone: string, amount: int,
                         token: nat, sessionId: string, now: nat, later: nat)
    requires WellFormed(s) && FreshSession(s, sessionId) && !Blank(sessionId)
    requires 100000 <= token <= 999999
    requires ClientRepository.IsFirstMatch(s, i, document, phone)
    requires !MissingMoneyField(document, phone, amount) && 0 < amount <= s.clients[i].balance
    ensures var started := MakePayment(s, document, phone, amount, token, sessionId, now, false);
            && started.response == Envelope(true, Ok, MsgTokenSent, PaymentStarted(sessionId, TokenText(token)))
            && var confirmed := ConfirmPayment(started.store, sessionId, TokenText(token), later, false);
               && confirmed.response == Envelope(true, Ok, MsgConfirmed,
                                                 PaymentConfirmed(|s.transactions| + 1, s.clients[i].balance - amount))
               && confirmed.store.clients == s.clients[i := Moved(s.clients[i], -amount, later)]
  {
    MakePaymentAppends(s, i, document, phone, amount, token, sessionId, now);
    ConfirmStartedPayment(s, i, amount, sessionId, TokenText(token), now, later);
  }

  /** Confirming the payment row just appended for the client at row i
      completes it and debits exactly its amount. */
  lemma ConfirmStartedPayment(s: Store, i: nat, amount: int, sessionId: string, code: string, now: nat, later: nat)
    requires WellFormed(s) && FreshSession(s, sessionId) && i < |s.clients|
    requires !Blank(sessionId) && !Blank(code) && amount <= s.clients[i].balance
    ensures var started := s.(transactions := s.transactions + [PaymentRow(s, i, amount, sessionId, code, now)]);
            var confirmed := ConfirmPayment(started, sessionId, code, later, false);
            && confirmed.response == Envelope(true, Ok, MsgConfirmed,
                                              PaymentConfirmed(|s.transactions| + 1, s.clients[i].balance - amount))
            && confirmed.store.clients == s.clients[i := Moved(s.clients[i], -amount, later)]
  {
    var started := s.(transactions := s.transactions + [PaymentRow(s, i, amount, sessionId, code, now)]);
    StartedPaymentIsPending(s, i, amount, sessionId, code, now);
    ConfirmSettlesFound(started, |s.transactions|, sessionId, code, later, false);
    SettleCompletes(started, |s.transactions|, later);
  }

  /** A payment row appended under a fresh session is the first pending row
      that session and its token find, and the store stays well formed. */
  lemma StartedPaymentIsPending(s: Store, i: nat, amount: int, sessionId: string, code: string, now: nat)
    requires WellFormed(s) && FreshSession(s, sessionId) && i < |s.clients|
    ensures var started := s.(transactions := s.transactions + [PaymentRow(s, i, amount, sessionId, code, now)]);
            && WellFormed(started)
            && TransactionRepository.IsFirstPending(started, |s.transactions|, sessionId, code)
            && started.transactions[|s.transactions|].clientId - 1 == i
            && started.transactions[|s.transactions|].amount == amount
  {
    var n := |s.transactions|;
    var started := s.(transactions := s.transactions + [PaymentRow(s, i, amount, sessionId, code, now)]);
    forall j | 0 <= j < n
      ensures !TransactionRepository.PendingMatch(started.transactions[j], sessionId, code)
    {
      assert started.transactions[j] == s.transactions[j];
    }
  }

  /** The exact outcome of recharging the client at row i. */
  lemma RechargeCredits(s: Store, i: nat, document: string, phone: string, amount: int, now: nat)
    requires WellFormed(s)
    requires ClientRepository.IsFirstMatch(s, i, document, phone)
    requires !MissingMoneyField(document, phone, amount) && amount > 0
    ensures RechargeWallet(s, document, phone, amount, now, false)
            == Outcome(Store(s.clients[i := Moved(s.clients[i], amount, now)], s.transactions + [DepositRow(s, i, amount, now)]),
                       Envelope(true, Ok, MsgRecharged, Recharged(s.clients[i].balance + amount, |s.transactions| + 1)))
  {
    FoundIsFirstMatch(s, i, document, phone);
    assert s.clients[i].id == Some(i + 1);
    assert RechargeWallet(s, document, phone, amount, now, false) == Credit(s, s.clients[i], amount, now, false);
  }

  /** The client a (document, phone) lookup returns is the first matching row. */
  lemma FoundIsFirstMatch(s: Store, i: nat, document: string, phone: string)
    requires ClientRepository.IsFirstMatch(s, i, document, phone)
    ensures ClientRepository.FindByDocumentAndPhone(s, document, phone) == Some(s.clients[i])
  {
    var found := ClientRepository.FindByDocumentAndPhone(s, document, phone);
    var i': nat :| ClientRepository.IsFirstMatch(s, i', document, phone) && s.clients[i'] == found.value;
    assert !(i < i') && !(i' < i);
  }

  /** The exact answer of a balance query that finds the client at row i. */
  lemma BalanceReads(s: Store, i: nat, document: string, phone: string)
    requires WellFormed(s)
    requires ClientRepository.IsFirstMatch(s, i, document, phone)
    requires !Blank(document) && !Blank(phone)
    ensures GetBalance(s, document, phone)
            == Envelope(true, Ok, MsgBalance, BalanceSnapshot(i + 1, s.clients[i].document, s.clients[i].name, s.clients[i].balance))
  {
    FoundIsFirstMatch(s, i, document, phone);
  }

  /** A successful recharge is visible to the next balance query: the
      balance grew by exactly the amount recharged. */
  lemma RechargeThenBalance(s: Store, i: nat, document: string, phone: string, amount: int, now: nat)
    requires WellFormed(s)
    requires ClientRepository.IsFirstMatch(s, i, document, phone)
    requires !MissingMoneyField(document, phone, amount) && amount > 0
    ensures var recharged := RechargeWallet(s, document, phone, amount, now, false);
            && recharged.response == Envelope(true, Ok, MsgRecharged,
                                              Recharged(s.clients[i].balance + amount, |s.transactions| + 1))
            && GetBalance(recharged.store, document, phone)
               == Envelope(true, Ok, MsgBalance, BalanceSnapshot(i + 1, s.clients[i].document, s.clients[i].name,
                                                                 s.clients[i].balance + amount))
  {
    RechargeCredits(s, i, document, phone, amount, now);
    var after := Store(s.clients[i := Moved(s.clients[i], amount, now)], s.transactions + [DepositRow(s, i, amount, now)]);
    CreditKeepsMatch(s, i, document, phone, amount, now);
    BalanceReads(after, i, document, phone);
  }

  /** Crediting the first matching client keeps the ledger well formed and
      that client the first match. */
  lemma CreditKeepsMatch(s: Store, i: nat, document: string, phone: string, amount: int, now: nat)
    requires WellFormed(s)
    requires ClientRepository.IsFirstMatch(s, i, document, phone)
    ensures var after := Store(s.clients[i := Moved(s.clients[i], amount, now)], s.transactions + [DepositRow(s, i, amount, now)]);
            WellFormed(after) && ClientRepository.IsFirstMatch(after, i, document, phone)
  {
    assert s.clients[i].id == Some(i + 1);
    UpdateAppendKeepsWellFormed(s, i, Moved(s.clients[i], amount, now), DepositRow(s, i, amount, now));
    var after := Store(s.clients[i := Moved(s.clients[i], amount, now)], s.transactions + [DepositRow(s, i, amount, now)]);
    forall j | 0 <= j < i
      ensures !ClientRepository.Matches(after.clients[j], document, phone)
    {
      assert after.clients[j] == s.clients[j];
    }
  }

  /** Registering a second client under a document already in use is refused
      with a conflict and leaves the ledger as it was. */
  lemma DuplicateDocumentConflicts(s: Store, i: nat, name: string, email: string, phone: string,
                                   now: nat, storeFails: bool)
    requires i < |s.clients|
    requires !MissingRegistrationField(s.clients[i].document, name, email, phone)
    ensures var r := RegisterClient(s, s.clients[i].document, name, email, phone, now, storeFails);
            r.response.code == Conflict && r.store == s
  {
    assert Clashes(s.clients[i], s.clients[i].document, email, phone);
  }
}
